=== FILE: README.md ===
# Arrowword board generator and turn rules, modelled in Dafny

This project models the core of a browser arrowword game (`script.js`). In an arrowword,
a clue sits in the grid cell just before its word.

The main part is `CrosswordGenerator`, which builds a `rows × cols` board:

- Row 0 and column 0 start as reserved clue cells.
- For each word of a shuffled vocabulary, it lists every horizontal and vertical start with
  row ≥ 1 and column ≥ 1 where the word fits.
- It keeps the starts that `canPlace` accepts and ranks them by how many letters they share
  with the board (`countIntersections`).
- It places one of the three best-ranked starts with `placeWord`, which writes or extends
  the clue cell and then the letters.
- An attempt succeeds when it places at least five words. `finalizeBoard` then turns every
  unassigned or reserved cell into a filler block. After 20 failed attempts, and for an
  empty vocabulary, no board is produced.

The second part is the game played on that board. The generated grid is read-only. A
separate fill state records who filled which letter cell. The model covers:

- a player's click on a cell: its guards, the tile it uses up, +1 or −1 points, and the
  word-completion bonus;
- topping the player's rack up to five tiles;
- the AI's move count by difficulty and its move loop.

Files:

- `wrappers.dfy`: `Option`, `Min`.
- `grid.dfy`: the data model. It holds the `Cell` variants (`Empty` = `null`, `Reserved`,
  `Clue(right, down)`, `Char`, `Block`), starts and their geometry, and the board
  invariants:
  - `Building`: no blocks, no letters on the border, every placed word legible;
  - `Finished`: additionally every cell is a letter, a clue or a block.
- `placement.dfy`: `canPlace`, `countIntersections`, `placeWord`, `finalizeBoard`.
- `generator.dfy`: candidate enumeration, ranking, `tryPlaceWordEverywhere`,
  `fillBoardLogic`, `generate`.
- `game.dfy`: fill state, `checkWordCompletion`, the open-cell scan, `fillPlayerRack`,
  `handleCellClick`.
- `ai.dfy`: `AI.play`, `makeMove`, `passTurn`.

Randomness is a parameter. The model does not describe probability distributions.

| source | model |
|---|---|
| vocabulary shuffle (script.js:71) | an `AttemptChoice.order` with the same multiset as the vocabulary, one per attempt |
| `best[Math.floor(Math.random() * best.length)]` (script.js:117) | a `pick`; the index is `pick % min(3, |candidates|)` |
| AI move count (script.js:443-445) | a `roll` |
| AI cell choice (script.js:459) | a `pick` per move; the index is `pick % |available|` |
| rack tile (script.js:338-343) | a `Draw(needed, k)`; the needed-letter branch is taken only when some letter is needed, as in the source |

Every contract holds for every choice.

Behaviour of `script.js` worth knowing, which the model keeps:

- `canPlace` has no adjacency check. A letter may be written next to a parallel word.
- `canPlace` does not refuse a start whose clue cell already carries a hint in the same
  direction. `placeWord` overwrites that hint (`WithHint`). Two words that start at the same
  clue cell in the same direction therefore share the later word's hint.
- A placed-word record holds the word and its start, but no hint.
- The minimum is five words, and there are 20 attempts.
- `canPlace` does no bounds checking. The enumeration ranges are its precondition
  (`ValidStart`).
- `handleCellClick` on an unassigned cell ignores the click. The source would read `.type` of
  `null` there, but a finalised board has no unassigned cells.
- `placeWord` requires the clue cell to be empty, reserved or a clue. On a letter or block
  cell the source would assign to the `hints` of an object that has none.

## Model

| member | source | states |
|---|---|---|
| Grid.InitialBoard | script.js:47-54 | a fresh attempt's board has row 0 and column 0 reserved, every other cell empty, no placed words, and satisfies the building invariant |
| Grid.CrossingsAgree | script.js:130-134 | on any board where every placed word is legible, two placed words whose spans share a cell have the same letter there, and that letter is on the board |
| Grid.StartGeometry | script.js:84-102 | every enumerated start keeps all letters in rows 1..rows-1 and columns 1..cols-1, keeps its clue cell on the board, and the clue cell is not a letter cell of the word |
| Placement.SpanFits | script.js:126-138 | the span scan accepts exactly when every remaining letter position holds no clashing letter, no clue and no reserved marker |
| Placement.CanPlace | script.js:124-149 | a start is accepted exactly when every span cell accepts its letter and the clue cell holds no letter |
| Placement.CanPlaceRefusals | script.js:132-146 | a start is refused exactly for a letter clash in the span, a clue or reserved cell in the span, or a letter in the clue cell |
| Placement.CountFrom | script.js:152-158 | the intersection count over the remaining span positions never exceeds their number |
| Placement.CountIntersections | script.js:151-159 | the intersection score is between 0 and the word length |
| Placement.CountFromIsCrossed | script.js:152-158 | the intersection count over span positions i.. equals the number of those positions whose cell already holds a letter |
| Placement.CrossedStep | script.js:152-158 | one more span position adds one to the set of crossed positions exactly when its cell already holds a letter |
| Placement.CountIntersectionsIsCrossings | script.js:151-159 | the intersection score equals the number of span positions whose cell already holds a letter |
| Placement.WithHint | script.js:166-172 | an empty or reserved clue cell becomes a fresh clue with only the new hint; an existing clue keeps its other-direction hint and has this direction's hint replaced |
| Placement.WriteLetters | script.js:174-179 | after the letter loop, every span cell from the loop index on holds the word's letter at that offset, and every other cell is unchanged |
| Placement.PlaceWord | script.js:161-185 | the clue cell carries the word's hint in its direction, the span spells the word, no other cell changes, and the word is appended to the placed words |
| Placement.PlaceWordPreserves | script.js:124-185 | after a successful `canPlace`, placing a word keeps every letter cell's letter, keeps every clue cell a clue, and preserves the building invariant: no blocks, no border letters, every earlier word still legible |
| Placement.Finalize | script.js:187-201 | after finalisation every cell is a letter, a clue or a block; letters and clues are kept; empty and reserved cells become blocks |
| Placement.PlaceWordSpan | script.js:126-138 | inside the span of an accepted start, placing the word writes the word's letters, never changes a letter that was already there, and never overwrites a clue |
| Placement.PlaceWordKeepsWords | script.js:124-185 | after an accepted placement every earlier placed word is still legible on the board |
| Placement.PlaceWordSettles | script.js:161-185 | an accepted placement only grows cells: empty cells and blocks may become letters, reserved cells and clues become clues, every other cell is kept |
| Placement.SettledCanPlace | script.js:124-149 | a start that `canPlace` accepts on a grown board was already accepted before the cells grew |
| Placement.SettledTrans | script.js:161-185 | growing cells twice is growing them once |
| Placement.FinalizeFinishes | script.js:59-62 | a board that kept the building invariant is a finished board after finalisation, with every placed word still legible |
| Placement.FinalizeIdempotent | script.js:192-198 | finalising a finalised board changes nothing |
| CrosswordGenerator.ScanFromHas | script.js:86-102 | a given start is in the sweep from (r, c) exactly when it has the sweep's direction, lies in the enumeration ranges, passes `canPlace` and is at or after (r, c) in row-major order |
| CrosswordGenerator.ScanFromMembers | script.js:86-102 | a sweep from (r, c) yields exactly the legal starts of its direction at or after (r, c) in row-major order |
| CrosswordGenerator.Candidates | script.js:84-102 | the candidate list contains exactly the starts that lie in the enumeration ranges and pass `canPlace` |
| CrosswordGenerator.Sweep | script.js:86-102 | the outer sweep loop produces the whole row-by-row sweep of one direction |
| CrosswordGenerator.SweepRow | script.js:87-91 | the inner sweep loop appends exactly one row of the sweep |
| CrosswordGenerator.EnumerateCandidates | script.js:79-102 | the two sweep loops together produce the candidate list, so a start is listed exactly when it is in range and passes `canPlace` |
| CrosswordGenerator.Insert | script.js:109-113 | inserting a candidate that comes before all others in sweep order into a stably ordered list keeps it stably ordered (descending score, ties in sweep order) and adds exactly that one element |
| CrosswordGenerator.Rank | script.js:109-113 | the ranked candidates are a permutation of the scored ones, in descending order of intersections with ties kept in sweep order, as a stable sort leaves them |
| CrosswordGenerator.RankedFromScored | script.js:109-116 | in a stably ordered permutation, the candidate at rank k is one of the scored ones, and every candidate with a higher score is ranked above k |
| CrosswordGenerator.TopRanked | script.js:115-117 | the candidate at rank k is a real candidate and at most k candidates have strictly more intersections |
| CrosswordGenerator.Choose | script.js:104-121 | there is no choice exactly when no in-range start passes `canPlace`; otherwise the choice passes `canPlace`, fewer than three candidates have strictly more intersections, and it is one of the first three candidates of the stable order (more intersections first, ties in sweep order) |
| CrosswordGenerator.ChooseReaches | script.js:109-117 | every candidate among the first three of the stable order is chosen by some pick, so the choices are exactly those three |
| CrosswordGenerator.RankOf | script.js:109-117 | after the stable sort, candidate i sits at the rank equal to the number of candidates with more intersections or with as many and an earlier sweep position |
| CrosswordGenerator.StableRank | script.js:109-113 | the candidate at rank k of the stable sort is the sweep candidate at its own position, and exactly k candidates come before it in the stable order |
| CrosswordGenerator.AheadCount | script.js:109-113 | in a stable ordering of a list indexed by position, exactly k elements come before the element at rank k |
| CrosswordGenerator.AheadInPrefix | script.js:109-113 | in a stable ordering, the elements that come before the one at rank k are exactly the elements at ranks below k |
| CrosswordGenerator.TryPlace | script.js:79-122 | with no legal start the board is unchanged; otherwise exactly one word is appended, placed by `placeWord` at a legal start among the first three of the stable order; the building invariant is kept |
| CrosswordGenerator.FillBoard | script.js:68-77 | one pass over the shuffled vocabulary keeps the building invariant, keeps earlier placements, places at most one word per vocabulary entry, places only the clean text of vocabulary entries, and places the first entry whenever it has a legal start; cells only grow, and every entry that still has a legal start on the final board was placed during the pass |
| CrosswordGenerator.FillBoardTriesAll | script.js:74-76 | one step of the pass: order[0] has room on the final board only if it had room when tried, and then it was placed |
| CrosswordGenerator.TryPlaceSettles | script.js:104-121 | trying one word only grows cells |
| CrosswordGenerator.HasRoomSettled | script.js:79-122 | a word with a legal start on a grown board had one before |
| CrosswordGenerator.FillBoardStep | script.js:73-76 | trying order[0] and then the rest keeps the earlier words, adds only vocabulary words, and grows the board when order[0] fits |
| CrosswordGenerator.Attempt | script.js:46-57 | one attempt yields a board of the requested size satisfying the building invariant, with no more placed words than vocabulary entries, every one the clean text of an entry of that attempt's order; every entry that still has a legal start on the attempt's board was placed |
| CrosswordGenerator.GenerateFrom | script.js:46-65 | no board exactly when every remaining attempt places fewer than five words; otherwise the finalised board of the first remaining attempt that places at least five, every earlier one placing fewer |
| CrosswordGenerator.FirstSuccessShift | script.js:46-63 | when attempt a fails, the first success from a + 1 on is the first success from a on |
| CrosswordGenerator.ShuffledPlacedFrom | script.js:71-76 | words placed from a shuffle of the vocabulary are words of the vocabulary |
| CrosswordGenerator.Generate | script.js:42-66 | no board exactly when the vocabulary is empty or all 20 attempts place fewer than five words; otherwise the finalised board of the first attempt that places at least five words, of the requested size, every placed word the clean text of a vocabulary entry |
| Game.CompletionBonus | script.js:379-396 | the bonus is zero exactly when no placed word through the cell is completely filled |
| Game.BonusOneWord | script.js:381-394 | a single placed word pays its length when it passes through the cell and is complete, and nothing otherwise |
| Game.BonusAdditive | script.js:387-394 | the bonus over two word lists is the sum of their bonuses, so every complete word through the cell is paid in full, at a crossing too |
| Game.BonusCrossing | script.js:387-394 | two complete words that both pass through the cell pay the sum of their lengths |
| Game.BonusCountsWord | script.js:387-394 | every completely filled word through the cell adds at least its length to the bonus |
| Game.BonusSingleWord | script.js:381-394 | when one word is the only placed word through the cell, the bonus is its length if it is complete and zero otherwise |
| Game.OpenFrom | script.js:433-439 | the scan from (r, c) lists exactly the unfilled letter cells at or after (r, c), with their correct letters, in strictly row-major order |
| Game.OpenCells | script.js:432-439 | the available cells are exactly the unfilled letter cells, each listed once, in row-major order |
| Game.NeededChars | script.js:326-334 | a letter is needed exactly when some unfilled letter cell holds it |
| Game.DrawTile | script.js:338-344 | a drawn tile is a needed letter when that branch is taken and some letter is needed, and otherwise a letter of the 27-letter alphabet |
| Game.Refill | script.js:337-345 | the rack is topped up to five tiles, keeps its existing tiles in place, and every new tile is a needed letter or an alphabet letter |
| Game.RemoveAt | script.js:360 | removing entry i (the rack splice here; `available.splice` at script.js:463 is the same operation) shortens the list by one, keeps the other entries in order, and removes exactly that entry from the multiset |
| Game.FillKeepsMatch | script.js:363-364 | writing a letter cell's correct letter into the fill state keeps every fill entry on its letter cell with the right letter |
| Game.HandleCellClick | script.js:349-377 | a click off-turn, without a selected tile, on a non-letter cell or on a filled cell changes nothing. Otherwise the selected tile leaves the rack. A correct letter fills the cell for the player and scores 1 plus the completion bonus. A wrong letter scores −1 and leaves the fill state alone. The rest of the rack keeps its order, as `splice` leaves it. An emptied rack is refilled by `fillPlayerRack` from an empty rack with needed letters of the board after the click, or alphabet letters |
| Game.ClickCompletesWord | script.js:363-368 | filling the last open cell of the only word through a cell with the correct tile raises the player's score by 1 plus that word's length |
| AI.MoveCount | script.js:443-445 | the move count is 1 on easy, 1 or 2 on medium, and 2 to 4 on hard |
| AI.MoveCountRange | script.js:443-445 | a count is produced by some roll exactly when the difficulty allows it |
| AI.TakeKeepsOpen | script.js:459-466 | after the chosen cell is filled and removed from `available`, every remaining available cell is still open, still distinct from the others, and still from the original list |
| AI.FillStep | script.js:462-466 | filling one open available cell for the AI keeps the fill state correct, grows it by one entry, leaves earlier fills alone, and every new fill belongs to the AI and was available |
| AI.FillStepOwners | script.js:465-466 | filling an available cell for the AI keeps every earlier fill and records the new one as the AI's, from `available` |
| AI.MakeMove | script.js:458-475 | one move fills a previously unfilled cell, the picked one, with its correct letter for the AI and scores 1 plus the completion bonus; the fill state stays correct, earlier fills stay, and the cells left in `available` stay open and distinct |
| AI.MakeMoves | script.js:450-478 | the move loop fills min(moves, available) distinct, previously unfilled cells. Each gets its correct letter and belongs to the AI. Earlier fills are unchanged. The AI score rises by at least one per move |
| AI.Play | script.js:430-448 | with no open cell, nothing changes and the turn is not handed back. Otherwise the AI fills min(move count, open cells) cells with AI ownership, the player's score is unchanged, the turn returns to the player, and the player's rack holds at least five tiles. The rack keeps its tiles in order and only gains needed or alphabet letters; the selection is untouched |
| AI.PassTurn | script.js:403-408 | a pass off-turn changes nothing. Otherwise the AI plays: on a full board the turn stays with the AI; otherwise the turn comes back after min(move count, open cells) fills. Earlier fills are kept, every new fill is the AI's, the AI's score rises by at least one per fill, and the rack only gains needed or alphabet letters at its end |

## Left out

- `loadVocabulary` (fetch, JSON, NFD normalisation, upper-casing) is input handling and
  calls foreign library code. Only its length filter `2 ≤ |clean| ≤ 8` appears, as
  `ValidWord`, a precondition of `Generate`.
- Rendering and DOM wiring are user interface: `renderGrid`, `renderRack`,
  `updateTurnIndicator`, `bindEvents`, `start`, `disableStartButtons`, the `document`
  calls inside `handleCellClick` and `makeMove`, and the score display in `updateScore`.
- `setTimeout` pacing is scheduling, not logic. `makeMove` is a plain loop.
- The probability weights of the random choices (the 0.7 needed-letter bias, the 60/40
  medium split, the uniform hard count) are not modelled. Only the sets of possible
  outcomes are.
- `shuffleRack` is a random permutation of the rack with no other effect.
- `generateNewBoard` retries `generate` without bound and may not terminate. Only a single
  `generate` call is modelled.
- The module-level singletons (`VOCABULARY`, `game`, `ai`) are passed as parameters
  (`vocab`, `Session`).
- CrosswordGenerator.Generate: does not model the crash of the source when `rows` is 0 and `cols` is positive.
  Row 0 does not exist there, and the model simply produces an empty grid. The game always
  uses 10 × 8.

=== FILE: ai.dfy ===
/**
  The computer opponent: how many cells it fills per turn, the move loop that
  fills them, and the turn hand-over. Its random choices (the move count and
  which open cell each move takes) are supplied by the caller.
 */
module AI {
  import opened Wrappers
  import opened Grid
  import opened Game

  datatype Difficulty = Easy | Medium | Hard

  const MaxMoves: nat := 4

  /** The move counts each difficulty allows. */
  predicate MovesAllowed(d: Difficulty, n: nat)
  {
    match d
    case Easy => n == 1
    case Medium => 1 <= n <= 2
    case Hard => 2 <= n <= 4
  }

  /** The move count of AI.play for a roll of its random source. */
  function MoveCount(d: Difficulty, roll: nat): (n: nat)
    ensures MovesAllowed(d, n) && n <= MaxMoves
  {
    match d
    case Easy => 1
    case Medium => if roll % 2 == 0 then 2 else 1
    case Hard => roll % 3 + 2
  }

  /** Exactly the allowed counts occur: every roll gives an allowed count, and every allowed
      count comes from some roll. */
  lemma MoveCountRange(d: Difficulty, n: nat)
    ensures (exists roll: nat :: MoveCount(d, roll) == n) <==> MovesAllowed(d, n)
  {
    if MovesAllowed(d, n) {
      var roll: nat := match d
        case Easy => 0
        case Medium => if n == 2 then 0 else 1
        case Hard => n - 2;
      assert MoveCount(d, roll) == n;
    }
  }

  /** Distinct cells: no two entries of `available` name the same position. */
  predicate Distinct(avail: seq<Open>)
  {
    forall i, j :: 0 <= i < j < |avail| ==> (avail[i].r, avail[i].c) != (avail[j].r, avail[j].c)
  }

  /** The fill side of the move loop's progress after `made` moves: the fill state is still
      correct, it grew by `made` entries, earlier fills are untouched, and every new fill
      belongs to the AI and was an available cell. */
  predicate FillSoFar(b: Board, fill: FillState, fill': FillState, available: seq<Open>, made: nat)
    requires Wf(b)
  {
    && FillMatches(b, fill')
    && |fill'| == |fill| + made
    && (forall pos :: pos in fill ==> pos in fill' && fill'[pos] == fill[pos])
    && (forall pos :: pos in fill' && pos !in fill ==>
          fill'[pos].owner == Ai && exists i :: 0 <= i < |available| && pos == (available[i].r, available[i].c))
  }

  /** The list side: the cells still available are open, distinct and drawn from the
      original list. */
  predicate AvailSoFar(b: Board, fill': FillState, available: seq<Open>, avail: seq<Open>)
    requires Wf(b)
  {
    && (forall i :: 0 <= i < |avail| ==> IsOpen(b, fill', avail[i]))
    && (forall i :: 0 <= i < |avail| ==> avail[i] in available)
    && Distinct(avail)
  }

  /** Filling one open, available cell for the AI keeps the fill side of the progress. */
  lemma FillStep(b: Board, fill: FillState, fill': FillState, available: seq<Open>, made: nat, o: Open)
    requires Wf(b) && FillSoFar(b, fill, fill', available, made)
    requires IsOpen(b, fill', o) && o in available
    ensures FillSoFar(b, fill, fill'[(o.r, o.c) := Fill(o.ch, Ai)], available, made + 1)
  {
    var fill2 := fill'[(o.r, o.c) := Fill(o.ch, Ai)];
    FillKeepsMatch(b, fill', o.r, o.c, Fill(o.ch, Ai));
    FillStepOwners(fill, fill', available, o);
    assert |fill2| == |fill'| + 1;
    assert FillSoFar(b, fill, fill2, available, made + 1);
  }

  /** Filling an available cell for the AI keeps earlier fills and the record of which new
      fills belong to the AI. */
  lemma FillStepOwners(fill: FillState, fill': FillState, available: seq<Open>, o: Open)
    requires forall pos :: pos in fill ==> pos in fill' && fill'[pos] == fill[pos]
    requires forall pos :: pos in fill' && pos !in fill ==>
               fill'[pos].owner == Ai && exists i :: 0 <= i < |available| && pos == (available[i].r, available[i].c)
    requires (o.r, o.c) !in fill' && o in available
    ensures var fill2 := fill'[(o.r, o.c) := Fill(o.ch, Ai)];
            && (forall pos :: pos in fill ==> pos in fill2 && fill2[pos] == fill[pos])
            && (forall pos :: pos in fill2 && pos !in fill ==>
                  fill2[pos].owner == Ai && exists i :: 0 <= i < |available| && pos == (available[i].r, available[i].c))
  {
    var fill2 := fill'[(o.r, o.c) := Fill(o.ch, Ai)];
    forall pos | pos in fill2 && pos !in fill
      ensures fill2[pos].owner == Ai && exists i :: 0 <= i < |available| && pos == (available[i].r, available[i].c)
    {
      if pos != (o.r, o.c) {
        assert pos in fill';
      } else {
        var i :| 0 <= i < |available| && available[i] == o;
      }
    }
  }

  /** One step of makeMove: the picked cell leaves `available`, is filled with its correct
      letter for the AI, and scores 1 plus the completion bonus. `fill0`, `available` and
      `made` only describe the progress so far. */
  method MakeMove(b: Board, ghost fill0: FillState, fill: FillState, ai: int, ghost available: seq<Open>,
                  avail: seq<Open>, ghost made: nat, pick: nat)
    returns (fill': FillState, ai': int, avail': seq<Open>)
    requires Wf(b) && FillMatches(b, fill0) && |avail| > 0
    requires FillSoFar(b, fill0, fill, available, made) && AvailSoFar(b, fill, available, avail)
    ensures var o := avail[pick % |avail|];
            && fill' == fill[(o.r, o.c) := Fill(o.ch, Ai)]
            && (o.r, o.c) !in fill
            && ai' == ai + 1 + CompletionBonus(b.words, fill', o.r, o.c)
            && avail' == RemoveAt(avail, pick % |avail|)
    ensures FillSoFar(b, fill0, fill', available, made + 1) && AvailSoFar(b, fill', available, avail')
    ensures |avail'| == |avail| - 1
  {
    var idx := pick % |avail|;
    var o := avail[idx];
    assert o in available;
    TakeKeepsOpen(b, fill, available, avail, idx);
    FillStep(b, fill0, fill, available, made, o);
    fill' := fill[(o.r, o.c) := Fill(o.ch, Ai)];
    avail' := RemoveAt(avail, idx);
    ai' := ai + 1 + CompletionBonus(b.words, fill', o.r, o.c);
  }

  /** makeMove's chain of delayed calls, as a loop: while moves are left and a cell is
      available, one move is made. */
  method MakeMoves(b: Board, fill: FillState, ai: int, moves: nat, available: seq<Open>, picks: seq<nat>)
    returns (fill': FillState, ai': int, made: nat)
    requires Wf(b) && FillMatches(b, fill)
    requires forall i :: 0 <= i < |available| ==> IsOpen(b, fill, available[i])
    requires Distinct(available)
    requires |picks| >= moves
    ensures made == Min(moves, |available|)
    ensures FillSoFar(b, fill, fill', available, made)
    ensures ai' >= ai + made
  {
    fill', ai', made := fill, ai, 0;
    var avail := available;
    var left := moves;
    while left > 0 && |avail| > 0
      invariant made + left == moves
      invariant made + |avail| == |available|
      invariant FillSoFar(b, fill, fill', available, made)
      invariant AvailSoFar(b, fill', available, avail)
      invariant ai' >= ai + made
    {
      fill', ai', avail := MakeMove(b, fill, fill', ai', available, avail, made, picks[made]);
      made := made + 1;
      left := left - 1;
    }
  }

  /** Filling the taken cell for the AI keeps the list side of the progress for the rest of
      `available`. */
  lemma TakeKeepsOpen(b: Board, fill: FillState, available: seq<Open>, avail: seq<Open>, idx: nat)
    requires Wf(b) && idx < |avail| && AvailSoFar(b, fill, available, avail)
    ensures var o := avail[idx];
            AvailSoFar(b, fill[(o.r, o.c) := Fill(o.ch, Ai)], available, RemoveAt(avail, idx))
  {
    var o := avail[idx];
    var rest := RemoveAt(avail, idx);
    forall i | 0 <= i < |rest|
      ensures rest[i] in avail
      ensures (rest[i].r, rest[i].c) != (o.r, o.c)
    {
      if i < idx {
        assert rest[i] == avail[i];
      } else {
        assert rest[i] == avail[i + 1];
      }
    }
  }

  /** AI.play: with no open cell the turn is not handed back; otherwise the AI fills
      min(move count, open cells) distinct open cells with their correct letters, the turn
      returns to the player and the player's rack is topped up. */
  method Play(s: Session, d: Difficulty, roll: nat, picks: seq<nat>, draws: seq<Draw>) returns (s': Session)
    requires SessionWf(s) && |picks| >= MaxMoves && |draws| >= RackSize
    ensures SessionWf(s') && s'.board == s.board && s'.score.player == s.score.player
    ensures |OpenCells(s.board, s.fill)| == 0 ==> s' == s
    ensures |OpenCells(s.board, s.fill)| > 0 ==>
              && s'.playerTurn
              && |s'.rack| >= RackSize
              && |s'.fill| == |s.fill| + Min(MoveCount(d, roll), |OpenCells(s.board, s.fill)|)
    ensures forall pos :: pos in s.fill ==> pos in s'.fill && s'.fill[pos] == s.fill[pos]
    ensures forall pos :: pos in s'.fill && pos !in s.fill ==> s'.fill[pos].owner == Ai
    ensures s'.score.ai >= s.score.ai + (|s'.fill| - |s.fill|)
    ensures s'.selected == s.selected
    ensures |s'.rack| >= |s.rack| && s'.rack[..|s.rack|] == s.rack
    ensures forall i :: |s.rack| <= i < |s'.rack| ==>
              s'.rack[i] in NeededChars(s.board, s'.fill) || s'.rack[i] in Alphabet
  {
    var available := OpenCells(s.board, s.fill);
    if |available| == 0 {
      return s;
    }
    var moves := MoveCount(d, roll);
    assert Distinct(available);
    assert forall i :: 0 <= i < |available| ==> IsOpen(s.board, s.fill, available[i]) by {
      forall i | 0 <= i < |available| ensures IsOpen(s.board, s.fill, available[i]) {
        assert available[i] in available;
      }
    }
    var fill, ai, made := MakeMoves(s.board, s.fill, s.score.ai, moves, available, picks);
    var rack := Refill(s.rack, NeededChars(s.board, fill), draws);
    s' := s.(fill := fill, score := s.score.(ai := ai), playerTurn := true, rack := rack);
  }

  /** passTurn: ignored off-turn; otherwise the turn passes to the AI, which plays: the new
      fills are the AI's, its score rises, and the player's rack is only topped up. */
  method PassTurn(s: Session, d: Difficulty, roll: nat, picks: seq<nat>, draws: seq<Draw>) returns (s': Session)
    requires SessionWf(s) && |picks| >= MaxMoves && |draws| >= RackSize
    ensures SessionWf(s') && s'.board == s.board && s'.score.player == s.score.player
    ensures !s.playerTurn ==> s' == s
    ensures s.playerTurn && |OpenCells(s.board, s.fill)| == 0 ==> s' == s.(playerTurn := false)
    ensures s.playerTurn && |OpenCells(s.board, s.fill)| > 0 ==>
              s'.playerTurn && |s'.fill| == |s.fill| + Min(MoveCount(d, roll), |OpenCells(s.board, s.fill)|)
    ensures forall pos :: pos in s.fill ==> pos in s'.fill && s'.fill[pos] == s.fill[pos]
    ensures forall pos :: pos in s'.fill && pos !in s.fill ==> s'.fill[pos].owner == Ai
    ensures s'.score.ai >= s.score.ai + (|s'.fill| - |s.fill|)
    ensures s'.selected == s.selected
    ensures |s'.rack| >= |s.rack| && s'.rack[..|s.rack|] == s.rack
    ensures forall i :: |s.rack| <= i < |s'.rack| ==>
              s'.rack[i] in NeededChars(s.board, s'.fill) || s'.rack[i] in Alphabet
  {
    if !s.playerTurn {
      return s;
    }
    s' := Play(s.(playerTurn := false), d, roll, picks, draws);
  }
}

=== FILE: game.dfy ===
/**
  The game session played on a generated board: the fill state overlay, the
  word-completion bonus, the player's rack and a player's click on a cell.
  The generated board is read only; all progress lives in the fill state.
 */
module Game {
  import opened Wrappers
  import opened Grid

  datatype Owner = Player | Ai

  /** An entry of currentState: the letter written into a cell and who wrote it. */
  datatype Fill = Fill(ch: char, owner: Owner)

  /** currentState, keyed by (row, column); an absent key is a cell nobody has filled. */
  type FillState = map<(int, int), Fill>

  datatype Score = Score(player: int, ai: int)

  /** One draw of fillPlayerRack's randomness: whether the "needed letter" branch is taken
      (the source takes it with probability 0.7, and only when some letter is needed),
      and an index into the list the tile is drawn from. */
  datatype Draw = Draw(needed: bool, k: nat)

  /** The pure state of a Game: the generated data, the fill overlay, the rack, the
      selected tile, whose turn it is and the scores. */
  datatype Session = Session(board: Board, fill: FillState, rack: seq<char>, selected: Option<nat>,
                             playerTurn: bool, score: Score)

  const RackSize: nat := 5

  /** The letters a random tile is drawn from, including Ñ. */
  const Alphabet: string := "ABCDEFGHIJKLMNÑOPQRSTUVWXYZ"

  /** Every filled cell is a letter cell of the board and holds its correct letter. */
  predicate FillMatches(b: Board, fill: FillState)
    requires Wf(b)
  {
    forall pos :: pos in fill ==> InBounds(b, pos.0, pos.1) && b.grid[pos.0][pos.1] == Char(fill[pos].ch)
  }

  predicate SessionWf(s: Session)
  {
    Wf(s.board) && FillMatches(s.board, s.fill) && (s.selected.Some? ==> s.selected.value < |s.rack|)
  }

  // ---------------------------------------------------------------------
  // checkWordCompletion
  // ---------------------------------------------------------------------

  /** The filter of checkWordCompletion: the word's span contains (r, c). */
  predicate Through(pw: PlacedWord, r: int, c: int)
  {
    InSpan(pw.at, |pw.word|, r, c)
  }

  /** Every cell of the word has been filled, by either side. */
  predicate Complete(pw: PlacedWord, fill: FillState)
  {
    forall i :: 0 <= i < |pw.word| ==> (SpanRow(pw.at, i), SpanCol(pw.at, i)) in fill
  }

  /** checkWordCompletion: the sum of the lengths of the placed words through (r, c) that
      are complete. It is zero exactly when no such word is complete. */
  function CompletionBonus(words: seq<PlacedWord>, fill: FillState, r: int, c: int): (bonus: nat)
    ensures bonus == 0 <==> forall k :: 0 <= k < |words| ==> !(Through(words[k], r, c) && Complete(words[k], fill))
  {
    if |words| == 0 then 0
    else
      (if Through(words[0], r, c) && Complete(words[0], fill) then |words[0].word| else 0)
      + CompletionBonus(words[1..], fill, r, c)
  }

  /** The bonus of one placed word: its length when it passes through the cell and is
      complete, nothing otherwise. */
  lemma BonusOneWord(pw: PlacedWord, fill: FillState, r: int, c: int)
    ensures CompletionBonus([pw], fill, r, c) == if Through(pw, r, c) && Complete(pw, fill) then |pw.word| else 0
  {
    assert [pw][1..] == [];
  }

  /** The bonus adds up over the word list, so each complete word through the cell is paid
      in full, also when several of them cross there. */
  lemma {:induction false} BonusAdditive(a: seq<PlacedWord>, b: seq<PlacedWord>, fill: FillState, r: int, c: int)
    ensures CompletionBonus(a + b, fill, r, c) == CompletionBonus(a, fill, r, c) + CompletionBonus(b, fill, r, c)
    decreases |a|
  {
    if |a| > 0 {
      assert (a + b)[0] == a[0];
      assert (a + b)[1..] == a[1..] + b;
      BonusAdditive(a[1..], b, fill, r, c);
    } else {
      assert a + b == b;
    }
  }

  /** Two complete words crossing at the cell pay both lengths. */
  lemma BonusCrossing(pw1: PlacedWord, pw2: PlacedWord, fill: FillState, r: int, c: int)
    requires Through(pw1, r, c) && Complete(pw1, fill) && Through(pw2, r, c) && Complete(pw2, fill)
    ensures CompletionBonus([pw1, pw2], fill, r, c) == |pw1.word| + |pw2.word|
  {
    assert [pw1, pw2] == [pw1] + [pw2];
    BonusAdditive([pw1], [pw2], fill, r, c);
    BonusOneWord(pw1, fill, r, c);
    BonusOneWord(pw2, fill, r, c);
  }

  /** Each complete word through the cell contributes its full length. */
  lemma {:induction false} BonusCountsWord(words: seq<PlacedWord>, fill: FillState, r: int, c: int, k: nat)
    requires k < |words| && Through(words[k], r, c) && Complete(words[k], fill)
    ensures CompletionBonus(words, fill, r, c) >= |words[k].word|
  {
    if k > 0 {
      BonusCountsWord(words[1..], fill, r, c, k - 1);
    }
  }

  /** When one word is the only placed word through the cell, the bonus is its length if it
      is complete and nothing otherwise. */
  lemma {:induction false} BonusSingleWord(words: seq<PlacedWord>, fill: FillState, r: int, c: int, k: nat)
    requires k < |words| && Through(words[k], r, c)
    requires forall j :: 0 <= j < |words| && j != k ==> !Through(words[j], r, c)
    ensures CompletionBonus(words, fill, r, c) == if Complete(words[k], fill) then |words[k].word| else 0
  {
    if k > 0 {
      BonusSingleWord(words[1..], fill, r, c, k - 1);
    } else {
      assert forall j :: 0 <= j < |words[1..]| ==> !Through(words[1..][j], r, c) by {
        forall j | 0 <= j < |words[1..]| ensures !Through(words[1..][j], r, c) {
          assert words[1..][j] == words[j + 1];
        }
      }
    }
  }

  // ---------------------------------------------------------------------
  // The open letter cells (AI.play's `available`, fillPlayerRack's `neededChars`)
  // ---------------------------------------------------------------------

  /** A letter cell nobody has filled yet, with its correct letter. */
  datatype Open = Open(r: int, c: int, ch: char)

  predicate IsOpen(b: Board, fill: FillState, o: Open)
    requires Wf(b)
  {
    InBounds(b, o.r, o.c) && b.grid[o.r][o.c] == Char(o.ch) && (o.r, o.c) !in fill
  }

  /** Row-major order. */
  predicate Before(o1: Open, o2: Open)
  {
    o1.r < o2.r || (o1.r == o2.r && o1.c < o2.c)
  }

  /** The row-major scan of the board from (r, c) for unfilled letter cells. */
  function OpenFrom(b: Board, fill: FillState, r: nat, c: nat): (s: seq<Open>)
    requires Wf(b)
    ensures forall o :: o in s <==> IsOpen(b, fill, o) && (o.r > r || (o.r == r && o.c >= c))
    ensures forall i, j :: 0 <= i < j < |s| ==> Before(s[i], s[j])
    decreases b.rows - r, b.cols - c
  {
    if r >= b.rows then []
    else if c >= b.cols then OpenFrom(b, fill, r + 1, 0)
    else
      var rest := OpenFrom(b, fill, r, c + 1);
      if b.grid[r][c].Char? && (r, c) !in fill then
        var o := Open(r, c, b.grid[r][c].ch);
        assert forall j :: 0 <= j < |rest| ==> rest[j] in rest;
        [o] + rest
      else rest
  }

  /** All unfilled letter cells, each once, in row-major order. */
  function OpenCells(b: Board, fill: FillState): (s: seq<Open>)
    requires Wf(b)
    ensures forall o :: o in s <==> IsOpen(b, fill, o)
    ensures forall i, j :: 0 <= i < j < |s| ==> Before(s[i], s[j])
  {
    OpenFrom(b, fill, 0, 0)
  }

  /** neededChars: the letters of the unfilled letter cells. */
  function NeededChars(b: Board, fill: FillState): (needed: seq<char>)
    requires Wf(b)
    ensures forall ch :: ch in needed <==> exists o :: IsOpen(b, fill, o) && o.ch == ch
  {
    var open := OpenCells(b, fill);
    var needed := seq(|open|, i requires 0 <= i < |open| => open[i].ch);
    assert forall ch :: ch in needed ==> exists o :: o in open && o.ch == ch by {
      forall ch | ch in needed ensures exists o :: o in open && o.ch == ch {
        var i :| 0 <= i < |needed| && needed[i] == ch;
        assert open[i] in open;
      }
    }
    assert forall o :: o in open ==> o.ch in needed by {
      forall o | o in open ensures o.ch in needed {
        var i :| 0 <= i < |open| && open[i] == o;
        assert needed[i] == o.ch;
      }
    }
    needed
  }

  // ---------------------------------------------------------------------
  // fillPlayerRack
  // ---------------------------------------------------------------------

  /** One tile: a needed letter when that branch is taken and some letter is needed,
      otherwise a letter of the alphabet. */
  function DrawTile(needed: seq<char>, d: Draw): (ch: char)
    ensures ch in needed || ch in Alphabet
    ensures |needed| == 0 || !d.needed ==> ch in Alphabet
    ensures |needed| > 0 && d.needed ==> ch in needed
  {
    if |needed| > 0 && d.needed then needed[d.k % |needed|] else Alphabet[d.k % |Alphabet|]
  }

  /** fillPlayerRack: tiles are appended until the rack holds five; the tiles already in
      the rack stay, and every new tile is a needed letter or a letter of the alphabet. */
  function Refill(rack: seq<char>, needed: seq<char>, draws: seq<Draw>): (r: seq<char>)
    requires |draws| >= RackSize - |rack|
    ensures |r| == if |rack| < RackSize then RackSize else |rack|
    ensures r[..|rack|] == rack
    ensures forall i :: |rack| <= i < |r| ==> r[i] in needed || r[i] in Alphabet
    decreases RackSize - |rack|
  {
    if |rack| >= RackSize then rack
    else
      var tile := DrawTile(needed, draws[0]);
      var r := Refill(rack + [tile], needed, draws[1..]);
      assert r[..|rack| + 1] == rack + [tile];
      assert r[|rack|] == tile by { assert r[|rack|] == r[..|rack| + 1][|rack|]; }
      assert r[..|rack|] == r[..|rack| + 1][..|rack|];
      r
  }

  // ---------------------------------------------------------------------
  // handleCellClick
  // ---------------------------------------------------------------------

  /** The guards of handleCellClick: not the player's turn, no tile selected, not a letter
      cell, or a cell already filled. */
  predicate ClickIgnored(s: Session, r: int, c: int)
    requires Wf(s.board) && InBounds(s.board, r, c)
  {
    !s.playerTurn || s.selected.None? || !s.board.grid[r][c].Char? || (r, c) in s.fill
  }

  /** handleCellClick: the selected tile is used up; a correct letter fills the cell for the
      player and scores 1 plus the completion bonus, a wrong letter costs 1 point; an
      emptied rack is refilled. */
  function HandleCellClick(s: Session, r: int, c: int, draws: seq<Draw>): (s': Session)
    requires SessionWf(s) && InBounds(s.board, r, c) && |draws| >= RackSize
    ensures SessionWf(s')
    ensures s'.board == s.board && s'.playerTurn == s.playerTurn && s'.score.ai == s.score.ai
    ensures ClickIgnored(s, r, c) ==> s' == s
    ensures !ClickIgnored(s, r, c) ==>
              var tile := s.rack[s.selected.value];
              && s'.selected.None?
              && (|s.rack| > 1 ==> multiset(s'.rack) + multiset{tile} == multiset(s.rack))
              && (|s.rack| > 1 ==> s'.rack == RemoveAt(s.rack, s.selected.value))
              && (|s.rack| == 1 ==> |s'.rack| == RackSize)
              && (|s.rack| == 1 ==> s'.rack == Refill([], NeededChars(s.board, s'.fill), draws))
              && (tile == s.board.grid[r][c].ch ==>
                    && s'.fill == s.fill[(r, c) := Fill(tile, Player)]
                    && s'.score.player == s.score.player + 1 + CompletionBonus(s.board.words, s'.fill, r, c))
              && (tile != s.board.grid[r][c].ch ==>
                    s'.fill == s.fill && s'.score.player == s.score.player - 1)
  {
    if ClickIgnored(s, r, c) then s
    else
      var i := s.selected.value;
      var tile := s.rack[i];
      var rack := RemoveAt(s.rack, i);
      var played :=
        if tile == s.board.grid[r][c].ch then
          var fill := s.fill[(r, c) := Fill(tile, Player)];
          FillKeepsMatch(s.board, s.fill, r, c, Fill(tile, Player));
          s.(fill := fill,
             score := s.score.(player := s.score.player + 1 + CompletionBonus(s.board.words, fill, r, c)))
        else
          s.(score := s.score.(player := s.score.player - 1));
      var rack' := if |rack| == 0 then Refill(rack, NeededChars(s.board, played.fill), draws) else rack;
      played.(rack := rack', selected := None)
  }

  /** s.splice(i, 1): the entry at i leaves the list and the others keep their order. */
  function RemoveAt<T>(s: seq<T>, i: nat): (rest: seq<T>)
    requires i < |s|
    ensures |rest| == |s| - 1
    ensures forall k :: 0 <= k < |rest| ==> rest[k] == (if k < i then s[k] else s[k + 1])
    ensures multiset(rest) + multiset{s[i]} == multiset(s)
  {
    assert s == s[..i] + [s[i]] + s[i + 1..];
    s[..i] + s[i + 1..]
  }

  /** Writing a letter cell's correct letter into the fill state keeps it correct. */
  lemma FillKeepsMatch(b: Board, fill: FillState, r: int, c: int, f: Fill)
    requires Wf(b) && FillMatches(b, fill) && InBounds(b, r, c) && b.grid[r][c] == Char(f.ch)
    ensures FillMatches(b, fill[(r, c) := f])
  {
    var fill2 := fill[(r, c) := f];
    forall pos | pos in fill2
      ensures InBounds(b, pos.0, pos.1) && b.grid[pos.0][pos.1] == Char(fill2[pos].ch)
    {
      if pos != (r, c) {
        assert pos in fill;
      }
    }
  }

  /** Filling the last open cell of the only word through a cell with the right tile scores
      one point for the letter plus the word's length. */
  lemma ClickCompletesWord(s: Session, r: int, c: int, draws: seq<Draw>, k: nat)
    requires SessionWf(s) && InBounds(s.board, r, c) && |draws| >= RackSize
    requires !ClickIgnored(s, r, c) && s.rack[s.selected.value] == s.board.grid[r][c].ch
    requires k < |s.board.words| && Through(s.board.words[k], r, c)
    requires forall j :: 0 <= j < |s.board.words| && j != k ==> !Through(s.board.words[j], r, c)
    requires forall i :: 0 <= i < |s.board.words[k].word| ==>
               (SpanRow(s.board.words[k].at, i), SpanCol(s.board.words[k].at, i)) in s.fill
               || (SpanRow(s.board.words[k].at, i), SpanCol(s.board.words[k].at, i)) == (r, c)
    ensures HandleCellClick(s, r, c, draws).score.player == s.score.player + 1 + |s.board.words[k].word|
  {
    var s' := HandleCellClick(s, r, c, draws);
    assert Complete(s.board.words[k], s'.fill);
    BonusSingleWord(s.board.words, s'.fill, r, c, k);
  }
}

=== FILE: generator.dfy ===
/**
  CrosswordGenerator: candidate enumeration, ranking by intersections, the
  per-word placement step, one attempt over the shuffled vocabulary, and the
  bounded retry of `generate`.

  The source's randomness is supplied by the caller: the shuffled vocabulary
  order of each attempt, and for each word a pick that selects one of the
  (at most three) best-ranked candidates.
 */
module CrosswordGenerator {
  import opened Wrappers
  import opened Grid
  import opened Placement

  const Attempts: nat := 20
  const MinWords: nat := 5
  const TopK: nat := 3

  // ---------------------------------------------------------------------
  // Candidate enumeration
  // ---------------------------------------------------------------------

  /** Row-major order of starts: (r, c) comes at or after (r0, c0). */
  predicate AtOrAfter(p: Start, r0: int, c0: int)
  {
    p.r > r0 || (p.r == r0 && p.c >= c0)
  }

  /** The legal starts of one direction, scanned row by row from (r, c), as the
      nested sweep loops produce them. */
  function ScanFrom(b: Board, w: string, dir: Dir, r: int, c: int): (s: seq<Start>)
    requires Wf(b) && 1 <= r && 1 <= c
    decreases if r <= LastRow(b.rows, |w|, dir) then LastRow(b.rows, |w|, dir) - r + 1 else 0,
              if c <= LastCol(b.cols, |w|, dir) then LastCol(b.cols, |w|, dir) - c + 1 else 0
  {
    if r > LastRow(b.rows, |w|, dir) then []
    else if c > LastCol(b.cols, |w|, dir) then ScanFrom(b, w, dir, r + 1, 1)
    else
      var p := Start(r, c, dir);
      (if CanPlace(b, w, p) then [p] else []) + ScanFrom(b, w, dir, r, c + 1)
  }

  /** The sweep from (r, c) yields exactly the legal starts of its direction at or after (r, c). */
  lemma ScanFromMembers(b: Board, w: string, dir: Dir, r: int, c: int)
    requires Wf(b) && 1 <= r && 1 <= c
    ensures forall p :: p in ScanFrom(b, w, dir, r, c) <==>
              p.dir == dir && ValidStart(b.rows, b.cols, |w|, p) && CanPlace(b, w, p) && AtOrAfter(p, r, c)
  {
    forall p: Start
      ensures p in ScanFrom(b, w, dir, r, c) <==>
              p.dir == dir && ValidStart(b.rows, b.cols, |w|, p) && CanPlace(b, w, p) && AtOrAfter(p, r, c)
    {
      ScanFromHas(b, w, dir, r, c, p);
    }
  }

  /** A legal start of direction dir at or after (r, c). */
  predicate LegalFrom(b: Board, w: string, dir: Dir, r: int, c: int, p: Start)
    requires Wf(b)
  {
    p.dir == dir && ValidStart(b.rows, b.cols, |w|, p) && CanPlace(b, w, p) && AtOrAfter(p, r, c)
  }

  /** One start at a time: p is in the sweep from (r, c) exactly when it is a legal start of
      that direction at or after (r, c). */
  lemma {:induction false} ScanFromHas(b: Board, w: string, dir: Dir, r: int, c: int, p: Start)
    requires Wf(b) && 1 <= r && 1 <= c
    ensures p in ScanFrom(b, w, dir, r, c) <==> LegalFrom(b, w, dir, r, c, p)
    decreases if r <= LastRow(b.rows, |w|, dir) then LastRow(b.rows, |w|, dir) - r + 1 else 0,
              if c <= LastCol(b.cols, |w|, dir) then LastCol(b.cols, |w|, dir) - c + 1 else 0
  {
    if r > LastRow(b.rows, |w|, dir) {
      assert ScanFrom(b, w, dir, r, c) == [];
    } else if c > LastCol(b.cols, |w|, dir) {
      ScanFromHas(b, w, dir, r + 1, 1, p);
      ScanHasRowEnd(b, w, dir, r, c, p);
    } else {
      ScanFromHas(b, w, dir, r, c + 1, p);
      ScanHasStep(b, w, dir, r, c, p);
    }
  }

  lemma ScanHasRowEnd(b: Board, w: string, dir: Dir, r: int, c: int, p: Start)
    requires Wf(b) && 1 <= r <= LastRow(b.rows, |w|, dir) && 1 <= c && c > LastCol(b.cols, |w|, dir)
    requires p in ScanFrom(b, w, dir, r + 1, 1) <==> LegalFrom(b, w, dir, r + 1, 1, p)
    ensures p in ScanFrom(b, w, dir, r, c) <==> LegalFrom(b, w, dir, r, c, p)
  {
    ScanRowEnd(b, w, dir, r, c);
    if p.dir == dir && ValidStart(b.rows, b.cols, |w|, p) {
      assert AtOrAfter(p, r, c) <==> AtOrAfter(p, r + 1, 1);
    }
  }

  lemma ScanHasStep(b: Board, w: string, dir: Dir, r: int, c: int, p: Start)
    requires Wf(b) && 1 <= r <= LastRow(b.rows, |w|, dir) && 1 <= c <= LastCol(b.cols, |w|, dir)
    requires p in ScanFrom(b, w, dir, r, c + 1) <==> LegalFrom(b, w, dir, r, c + 1, p)
    ensures p in ScanFrom(b, w, dir, r, c) <==> LegalFrom(b, w, dir, r, c, p)
  {
    var here := Start(r, c, dir);
    ScanStep(b, w, dir, r, c);
    if p == here {
      assert p in ScanFrom(b, w, dir, r, c) <==> CanPlace(b, w, here);
    } else {
      assert p in ScanFrom(b, w, dir, r, c) <==> p in ScanFrom(b, w, dir, r, c + 1);
      if p.dir == dir {
        assert AtOrAfter(p, r, c) <==> AtOrAfter(p, r, c + 1);
      }
    }
  }

  /** All candidates of a word: the horizontal sweep followed by the vertical sweep. */
  function Candidates(b: Board, w: string): (s: seq<Start>)
    requires Wf(b)
    ensures forall p :: p in s <==> ValidStart(b.rows, b.cols, |w|, p) && CanPlace(b, w, p)
  {
    ScanFromMembers(b, w, Across, 1, 1);
    ScanFromMembers(b, w, Down, 1, 1);
    ScanFrom(b, w, Across, 1, 1) + ScanFrom(b, w, Down, 1, 1)
  }

  /** The outer sweep loop of tryPlaceWordEverywhere: rows 1..LastRow. */
  method Sweep(b: Board, w: string, dir: Dir) returns (cands: seq<Start>)
    requires Wf(b)
    ensures cands == ScanFrom(b, w, dir, 1, 1)
  {
    cands := [];
    var r := 1;
    while r <= LastRow(b.rows, |w|, dir)
      invariant 1 <= r
      invariant cands + ScanFrom(b, w, dir, r, 1) == ScanFrom(b, w, dir, 1, 1)
    {
      cands := SweepRow(b, w, dir, r, cands);
      r := r + 1;
    }
  }

  /** The inner sweep loop: columns 1..LastCol of row r, appended to the candidates so far. */
  method SweepRow(b: Board, w: string, dir: Dir, r: int, before: seq<Start>) returns (cands: seq<Start>)
    requires Wf(b) && 1 <= r <= LastRow(b.rows, |w|, dir)
    ensures cands + ScanFrom(b, w, dir, r + 1, 1) == before + ScanFrom(b, w, dir, r, 1)
  {
    cands := before;
    var c := 1;
    while c <= LastCol(b.cols, |w|, dir)
      invariant 1 <= c
      invariant cands + ScanFrom(b, w, dir, r, c) == before + ScanFrom(b, w, dir, r, 1)
    {
      var p := Start(r, c, dir);
      ScanStep(b, w, dir, r, c);
      ghost var rest := ScanFrom(b, w, dir, r, c + 1);
      if CanPlace(b, w, p) {
        assert ScanFrom(b, w, dir, r, c) == [p] + rest;
        AppendAssoc(cands, [p], rest);
        cands := cands + [p];
      } else {
        assert ScanFrom(b, w, dir, r, c) == rest;
      }
      c := c + 1;
    }
    ScanRowEnd(b, w, dir, r, c);
  }

  /** Associativity of concatenation. A solver hint: stated on its own, it keeps the sweep
      loop's invariant check small. */
  lemma AppendAssoc<T>(a: seq<T>, b: seq<T>, c: seq<T>)
    ensures (a + b) + c == a + (b + c)
  {
  }

  /** One unfolding of ScanFrom inside the row. It is a solver hint: the loop and the
      induction see only this equation instead of the whole definition. */
  lemma ScanStep(b: Board, w: string, dir: Dir, r: int, c: int)
    requires Wf(b) && 1 <= r <= LastRow(b.rows, |w|, dir) && 1 <= c <= LastCol(b.cols, |w|, dir)
    ensures ScanFrom(b, w, dir, r, c)
         == (if CanPlace(b, w, Start(r, c, dir)) then [Start(r, c, dir)] else []) + ScanFrom(b, w, dir, r, c + 1)
  {
  }

  /** One unfolding of ScanFrom past the end of a row; a solver hint like ScanStep. */
  lemma ScanRowEnd(b: Board, w: string, dir: Dir, r: int, c: int)
    requires Wf(b) && 1 <= r <= LastRow(b.rows, |w|, dir) && 1 <= c && c > LastCol(b.cols, |w|, dir)
    ensures ScanFrom(b, w, dir, r, c) == ScanFrom(b, w, dir, r + 1, 1)
  {
  }

  /** The horizontal then the vertical sweep of tryPlaceWordEverywhere. */
  method EnumerateCandidates(b: Board, w: string) returns (cands: seq<Start>)
    requires Wf(b)
    ensures cands == Candidates(b, w)
    ensures forall p :: p in cands <==> ValidStart(b.rows, b.cols, |w|, p) && CanPlace(b, w, p)
  {
    var across := Sweep(b, w, Across);
    var down := Sweep(b, w, Down);
    cands := across + down;
  }

  // ---------------------------------------------------------------------
  // Ranking: the stable sort by descending intersection count
  // ---------------------------------------------------------------------

  /** A candidate together with its intersection count and its position in the sweep. */
  datatype Scored = Scored(at: Start, score: nat, idx: nat)

  /** x comes before y after the stable sort: more intersections, or as many and earlier in
      the sweep. */
  predicate Ahead(x: Scored, y: Scored)
  {
    x.score > y.score || (x.score == y.score && x.idx < y.idx)
  }

  /** The order candidates.sort leaves: by descending score, ties in sweep order. */
  predicate StableOrder(s: seq<Scored>)
  {
    forall i, j :: 0 <= i < j < |s| ==> Ahead(s[i], s[j])
  }

  /** Inserts x before the first element it does not score below. When x comes before every
      element of s in the sweep, ties keep sweep order. */
  function Insert(x: Scored, s: seq<Scored>): (r: seq<Scored>)
    requires StableOrder(s)
    requires forall y :: y in s ==> x.idx < y.idx
    ensures StableOrder(r)
    ensures multiset(r) == multiset(s) + multiset{x}
    ensures forall y :: y in r ==> y == x || y in s
  {
    if |s| == 0 then [x]
    else if x.score >= s[0].score then
      InsertFront(x, s);
      [x] + s
    else
      assert s == [s[0]] + s[1..];
      var tail := Insert(x, s[1..]);
      InsertBehind(x, s, tail);
      assert multiset([s[0]] + tail) == multiset{s[0]} + multiset(tail);
      [s[0]] + tail
  }

  /** A candidate that scores at least the head, and comes earlier in the sweep than every
      element, goes in front. */
  lemma InsertFront(x: Scored, s: seq<Scored>)
    requires StableOrder(s) && |s| > 0 && x.score >= s[0].score
    requires forall y :: y in s ==> x.idx < y.idx
    ensures StableOrder([x] + s)
  {
    forall j | 0 <= j < |s|
      ensures Ahead(x, s[j])
    {
      assert s[j] in s;
      if j > 0 { assert Ahead(s[0], s[j]); }
    }
    ConsOrder(x, s);
  }

  /** The head of s stays in front of a tail built from x and the rest of s when x scores
      below it. */
  lemma InsertBehind(x: Scored, s: seq<Scored>, tail: seq<Scored>)
    requires StableOrder(s) && |s| > 0 && x.score < s[0].score && StableOrder(tail)
    requires forall y :: y in tail ==> y == x || y in s[1..]
    ensures StableOrder([s[0]] + tail)
  {
    forall j | 0 <= j < |tail|
      ensures Ahead(s[0], tail[j])
    {
      assert tail[j] in tail;
      if tail[j] != x {
        var m :| 0 <= m < |s[1..]| && s[1..][m] == tail[j];
        assert s[m + 1] == tail[j];
      }
    }
    ConsOrder(s[0], tail);
  }

  /** An element that comes before every element of a stably ordered list can lead it. */
  lemma ConsOrder(h: Scored, t: seq<Scored>)
    requires StableOrder(t)
    requires forall j :: 0 <= j < |t| ==> Ahead(h, t[j])
    ensures StableOrder([h] + t)
  {
    forall i, j | 0 <= i < j < |[h] + t|
      ensures Ahead(([h] + t)[i], ([h] + t)[j])
    {
      if i > 0 {
        assert Ahead(t[i - 1], t[j - 1]);
      } else {
        assert Ahead(h, t[j - 1]);
      }
    }
  }

  /** candidates.sort by descending intersection count. The sort is stable, so a list given
      in sweep order comes out in the stable order. */
  function Rank(s: seq<Scored>): (r: seq<Scored>)
    requires forall i, j :: 0 <= i < j < |s| ==> s[i].idx < s[j].idx
    ensures StableOrder(r)
    ensures multiset(r) == multiset(s)
  {
    if |s| == 0 then []
    else
      assert s == [s[0]] + s[1..];
      var rest := Rank(s[1..]);
      assert forall y :: y in rest ==> s[0].idx < y.idx by {
        forall y | y in rest ensures s[0].idx < y.idx {
          assert y in multiset(s[1..]);
        }
      }
      Insert(s[0], rest)
  }

  /** Every candidate paired with its intersection count and its sweep position. */
  function ScoreAll(b: Board, w: string, cands: seq<Start>): (r: seq<Scored>)
    requires Wf(b)
    requires forall i :: 0 <= i < |cands| ==> ValidStart(b.rows, b.cols, |w|, cands[i])
    ensures |r| == |cands|
    ensures forall i :: 0 <= i < |r| ==> r[i] == Scored(cands[i], CountIntersections(b, w, cands[i]), i)
  {
    seq(|cands|, i requires 0 <= i < |cands| => Scored(cands[i], CountIntersections(b, w, cands[i]), i))
  }

  /** The candidates that score strictly more intersections than p. */
  function BetterThan(b: Board, w: string, p: Start): set<Start>
    requires Wf(b) && ValidStart(b.rows, b.cols, |w|, p)
  {
    set q | q in Candidates(b, w) && CountIntersections(b, w, q) > CountIntersections(b, w, p)
  }

  /** The sweep positions of the candidates the stable sort puts before candidate i. */
  function StableAhead(b: Board, w: string, cands: seq<Start>, i: nat): set<nat>
    requires Wf(b) && i < |cands|
    requires forall j :: 0 <= j < |cands| ==> ValidStart(b.rows, b.cols, |w|, cands[j])
  {
    set j: nat | j < |cands| &&
      (CountIntersections(b, w, cands[j]) > CountIntersections(b, w, cands[i]) ||
       (CountIntersections(b, w, cands[j]) == CountIntersections(b, w, cands[i]) && j < i))
  }

  /** p is among the first three candidates of the stable order. */
  predicate InStableTop(b: Board, w: string, p: Start)
    requires Wf(b)
  {
    exists i :: 0 <= i < |Candidates(b, w)| && Candidates(b, w)[i] == p &&
      |StableAhead(b, w, Candidates(b, w), i)| < TopK
  }

  /** The placement tryPlaceWordEverywhere picks: none when no start is legal, otherwise
      the ranked candidate at index pick mod min(3, number of candidates). */
  function Choose(b: Board, w: string, pick: nat): (r: Option<Start>)
    requires Wf(b)
    ensures r.None? <==> forall p :: ValidStart(b.rows, b.cols, |w|, p) ==> !CanPlace(b, w, p)
    ensures r.Some? ==> ValidStart(b.rows, b.cols, |w|, r.value) && CanPlace(b, w, r.value)
    ensures r.Some? ==> |BetterThan(b, w, r.value)| < TopK
    ensures r.Some? ==> InStableTop(b, w, r.value)
  {
    var cands := Candidates(b, w);
    if |cands| == 0 then
      None
    else
      var ranked := Rank(ScoreAll(b, w, cands));
      var k := pick % Min(TopK, |ranked|);
      assert cands[0] in cands;
      TopRanked(b, w, cands, ranked, k);
      StableRank(b, w, cands, ranked, k);
      Some(ranked[k].at)
  }

  /** Every stable top-three candidate is chosen by some pick, so together with Choose's
      contract the choices are exactly the first three candidates of the stable order. */
  lemma ChooseReaches(b: Board, w: string, i: nat)
    requires Wf(b) && i < |Candidates(b, w)|
    requires |StableAhead(b, w, Candidates(b, w), i)| < TopK
    ensures exists pick: nat :: Choose(b, w, pick) == Some(Candidates(b, w)[i])
  {
    var cands := Candidates(b, w);
    var k := RankOf(b, w, cands, i);
    var scored := ScoreAll(b, w, cands);
    var ranked := Rank(scored);
    assert |ranked| == |cands| by {
      assert |multiset(ranked)| == |multiset(scored)|;
    }
    SmallMod(k, Min(TopK, |ranked|));
    assert ranked[k].at == cands[i];
    assert Choose(b, w, k) == Some(cands[i]);
  }

  /** A pick below the number of choices selects itself. A solver hint, not a property of
      the model: stated on its own, it keeps nonlinear `%` out of ChooseReaches. */
  lemma SmallMod(k: nat, m: nat)
    requires k < m
    ensures k % m == k
  {
  }

  /** The rank the stable sort gives candidate i: the number of candidates before it. */
  lemma RankOf(b: Board, w: string, cands: seq<Start>, i: nat) returns (k: nat)
    requires Wf(b) && i < |cands|
    requires forall j :: 0 <= j < |cands| ==> ValidStart(b.rows, b.cols, |w|, cands[j])
    ensures k == |StableAhead(b, w, cands, i)| && k < |cands|
    ensures Rank(ScoreAll(b, w, cands))[k].at == cands[i]
  {
    var scored := ScoreAll(b, w, cands);
    var ranked := Rank(scored);
    assert scored[i] in multiset(ranked);
    k :| 0 <= k < |ranked| && ranked[k] == scored[i];
    StableRank(b, w, cands, ranked, k);
  }

  /** The candidate at rank k of a descending ranking is beaten by at most k candidates. */
  lemma TopRanked(b: Board, w: string, cands: seq<Start>, ranked: seq<Scored>, k: nat)
    requires Wf(b) && cands == Candidates(b, w)
    requires ranked == Rank(ScoreAll(b, w, cands)) && k < |ranked|
    ensures ranked[k].at in cands
    ensures |BetterThan(b, w, ranked[k].at)| <= k
  {
    var scored := ScoreAll(b, w, cands);
    var p := ranked[k].at;
    RankedFromScored(scored, ranked, k);
    var i :| 0 <= i < |scored| && scored[i] == ranked[k];
    assert p == cands[i];
    var prefix := set j | 0 <= j < k :: ranked[j].at;
    forall q | q in BetterThan(b, w, p)
      ensures q in prefix
    {
      var iq :| 0 <= iq < |cands| && cands[iq] == q;
      assert scored[iq].score > ranked[k].score;
      var jq :| 0 <= jq < k && ranked[jq] == scored[iq];
      assert ranked[jq].at == q;
    }
    SubsetCard(BetterThan(b, w, p), prefix);
    PrefixImageCard(ranked, k);
  }

  /** The candidate at rank k of the stable ranking is the one at sweep position
      ranked[k].idx, and exactly k candidates come before it in the stable order. */
  lemma StableRank(b: Board, w: string, cands: seq<Start>, ranked: seq<Scored>, k: nat)
    requires Wf(b) && forall j :: 0 <= j < |cands| ==> ValidStart(b.rows, b.cols, |w|, cands[j])
    requires ranked == Rank(ScoreAll(b, w, cands)) && k < |ranked|
    ensures ranked[k].idx < |cands| && ranked[k].at == cands[ranked[k].idx]
    ensures |StableAhead(b, w, cands, ranked[k].idx)| == k
  {
    var scored := ScoreAll(b, w, cands);
    RankedIndexed(scored, ranked, k);
    var x := ranked[k];
    AheadCount(scored, ranked, k);
    var ahead := set j: nat | j < |scored| && Ahead(scored[j], x);
    forall j: nat
      ensures j in StableAhead(b, w, cands, x.idx) <==> j in ahead
    {
      if j < |scored| {
        assert scored[j] == Scored(cands[j], CountIntersections(b, w, cands[j]), j);
      }
    }
    assert StableAhead(b, w, cands, x.idx) == ahead;
  }

  /** In a stable ranking of a list indexed by position, exactly k elements come before the
      element at rank k. */
  lemma AheadCount(scored: seq<Scored>, ranked: seq<Scored>, k: nat)
    requires forall i :: 0 <= i < |scored| ==> scored[i].idx == i
    requires multiset(ranked) == multiset(scored) && StableOrder(ranked) && k < |ranked|
    ensures |set j: nat | j < |scored| && Ahead(scored[j], ranked[k])| == k
  {
    var x := ranked[k];
    var prefix := set m | 0 <= m < k :: ranked[m].idx;
    AheadInPrefix(scored, ranked, k);
    forall m1, m2 | 0 <= m1 < m2 < k
      ensures ranked[m1].idx != ranked[m2].idx
    {
      RankedIndexed(scored, ranked, m1);
      RankedIndexed(scored, ranked, m2);
    }
    DistinctPrefixCard(ranked, k);
  }

  /** The elements before rank k are exactly those that come before ranked[k]. */
  lemma AheadInPrefix(scored: seq<Scored>, ranked: seq<Scored>, k: nat)
    requires forall i :: 0 <= i < |scored| ==> scored[i].idx == i
    requires multiset(ranked) == multiset(scored) && StableOrder(ranked) && k < |ranked|
    ensures (set j: nat | j < |scored| && Ahead(scored[j], ranked[k])) == set m | 0 <= m < k :: ranked[m].idx
  {
    var x := ranked[k];
    var ahead := set j: nat | j < |scored| && Ahead(scored[j], x);
    var prefix := set m | 0 <= m < k :: ranked[m].idx;
    forall j | j in ahead
      ensures j in prefix
    {
      assert scored[j] in multiset(ranked);
      var m :| 0 <= m < |ranked| && ranked[m] == scored[j];
      assert m < k;
    }
    forall j | j in prefix
      ensures j in ahead
    {
      var m :| 0 <= m < k && ranked[m].idx == j;
      RankedIndexed(scored, ranked, m);
    }
  }

  /** Every ranked element is the scored element at its own sweep position. */
  lemma RankedIndexed(scored: seq<Scored>, ranked: seq<Scored>, k: nat)
    requires multiset(ranked) == multiset(scored) && k < |ranked|
    requires forall i :: 0 <= i < |scored| ==> scored[i].idx == i
    ensures ranked[k].idx < |scored| && scored[ranked[k].idx] == ranked[k]
  {
    assert ranked[k] in multiset(scored);
    var i :| 0 <= i < |scored| && scored[i] == ranked[k];
  }

  /** k ranked elements with pairwise different sweep positions have k different positions. */
  lemma {:induction false} DistinctPrefixCard(s: seq<Scored>, k: nat)
    requires k <= |s|
    requires forall m1, m2 :: 0 <= m1 < m2 < k ==> s[m1].idx != s[m2].idx
    ensures |set m | 0 <= m < k :: s[m].idx| == k
  {
    if k > 0 {
      DistinctPrefixCard(s, k - 1);
      var before := set m | 0 <= m < k - 1 :: s[m].idx;
      assert s[k - 1].idx !in before;
      assert (set m | 0 <= m < k :: s[m].idx) == before + {s[k - 1].idx};
    }
  }

  /** In a stably ranked permutation of scored, the element at rank k comes from scored, and
      every scored element with a higher score sits above rank k. */
  lemma RankedFromScored(scored: seq<Scored>, ranked: seq<Scored>, k: nat)
    requires multiset(ranked) == multiset(scored) && StableOrder(ranked) && k < |ranked|
    ensures exists i :: 0 <= i < |scored| && scored[i] == ranked[k]
    ensures forall i :: 0 <= i < |scored| && scored[i].score > ranked[k].score ==>
              exists j :: 0 <= j < k && ranked[j] == scored[i]
  {
    assert ranked[k] in multiset(scored);
    forall i | 0 <= i < |scored| && scored[i].score > ranked[k].score
      ensures exists j :: 0 <= j < k && ranked[j] == scored[i]
    {
      assert scored[i] in multiset(ranked);
      var j :| 0 <= j < |ranked| && ranked[j] == scored[i];
      assert j < k;
    }
  }

  lemma {:induction false} SubsetCard<T>(a: set<T>, b: set<T>)
    requires a <= b
    ensures |a| <= |b|
    decreases b
  {
    if a != {} {
      var x :| x in a;
      SubsetCard(a - {x}, b - {x});
    }
  }

  /** The first k ranked candidates are at most k distinct starts. */
  lemma {:induction false} PrefixImageCard(s: seq<Scored>, k: nat)
    requires k <= |s|
    ensures |set j | 0 <= j < k :: s[j].at| <= k
  {
    if k > 0 {
      PrefixImageCard(s, k - 1);
      assert (set j | 0 <= j < k :: s[j].at) == (set j | 0 <= j < k - 1 :: s[j].at) + {s[k - 1].at};
    }
  }

  // ---------------------------------------------------------------------
  // tryPlaceWordEverywhere, fillBoardLogic, generate
  // ---------------------------------------------------------------------

  /** tryPlaceWordEverywhere: with no legal start the board is left alone; otherwise the
      chosen candidate is placed. */
  function TryPlace(b: Board, w: Word, pick: nat): (b': Board)
    requires Building(b)
    ensures Building(b') && b'.rows == b.rows && b'.cols == b.cols
    ensures (forall p :: ValidStart(b.rows, b.cols, |w.clean|, p) ==> !CanPlace(b, w.clean, p)) ==> b' == b
    ensures |b'.words| == |b.words| || |b'.words| == |b.words| + 1
    ensures b'.words[..|b.words|] == b.words
    ensures |b'.words| == |b.words| + 1 <==> exists p :: ValidStart(b.rows, b.cols, |w.clean|, p) && CanPlace(b, w.clean, p)
    ensures |b'.words| == |b.words| + 1 ==>
              var p := b'.words[|b.words|].at;
              && b'.words[|b.words|].word == w.clean
              && ValidStart(b.rows, b.cols, |w.clean|, p) && CanPlace(b, w.clean, p)
              && |BetterThan(b, w.clean, p)| < TopK
              && InStableTop(b, w.clean, p)
              && b' == PlaceWord(b, w, p)
  {
    match Choose(b, w.clean, pick)
    case None => b
    case Some(p) =>
      PlaceWordPreserves(b, w, p);
      PlaceWord(b, w, p)
  }

  /** The text s is the clean text of some entry of the vocabulary order. */
  predicate Listed(s: string, order: seq<Word>)
  {
    exists j :: 0 <= j < |order| && order[j].clean == s
  }

  /** Every word placed on b' after the first n comes from the vocabulary order. */
  predicate PlacedFrom(b': Board, n: nat, order: seq<Word>)
  {
    forall k :: n <= k < |b'.words| ==> Listed(b'.words[k].word, order)
  }

  /** The word w has a legal start on b. */
  ghost predicate HasRoom(b: Board, w: Word)
    requires Wf(b)
  {
    exists p :: ValidStart(b.rows, b.cols, |w.clean|, p) && CanPlace(b, w.clean, p)
  }

  /** Some word of b' from index n on has the text s. */
  ghost predicate PlacedAt(b': Board, n: nat, s: string)
  {
    exists m :: n <= m < |b'.words| && b'.words[m].word == s
  }

  /** Every entry of the order that still has a legal start on b' was placed at index n or
      later: a word that was tried and skipped no longer fits anywhere. */
  ghost predicate TriedAll(b': Board, n: nat, order: seq<Word>)
    requires Wf(b')
  {
    forall k :: 0 <= k < |order| && HasRoom(b', order[k]) ==> PlacedAt(b', n, order[k].clean)
  }

  /** A word with room on a grown board had room before. */
  lemma HasRoomSettled(b: Board, b': Board, w: Word)
    requires Settled(b, b') && HasRoom(b', w)
    ensures HasRoom(b, w)
  {
    var p :| ValidStart(b'.rows, b'.cols, |w.clean|, p) && CanPlace(b', w.clean, p);
    SettledCanPlace(b, b', w.clean, p);
  }

  /** tryPlaceWordEverywhere only grows cells. */
  lemma TryPlaceSettles(b: Board, w: Word, pick: nat)
    requires Building(b)
    ensures Settled(b, TryPlace(b, w, pick))
  {
    var b' := TryPlace(b, w, pick);
    if |b'.words| == |b.words| + 1 {
      var p := b'.words[|b.words|].at;
      PlaceWordSettles(b, w, p);
    }
  }

  /** fillBoardLogic: tries every word of the shuffled vocabulary once, in order, each with
      its own pick. Only vocabulary words are placed, cells only grow, and an entry that
      still fits on the final board was placed. */
  function FillBoard(b: Board, order: seq<Word>, picks: seq<nat>): (b': Board)
    requires Building(b) && |picks| == |order|
    ensures Building(b') && b'.rows == b.rows && b'.cols == b.cols
    ensures |b.words| <= |b'.words| <= |b.words| + |order|
    ensures b'.words[..|b.words|] == b.words
    ensures PlacedFrom(b', |b.words|, order)
    ensures |order| > 0 && HasRoom(b, order[0]) ==> |b'.words| > |b.words|
    ensures Settled(b, b')
    ensures TriedAll(b', |b.words|, order)
    decreases |order|
  {
    if |order| == 0 then b
    else
      var next := TryPlace(b, order[0], picks[0]);
      var b' := FillBoard(next, order[1..], picks[1..]);
      FillBoardStep(b, order, next, b');
      TryPlaceSettles(b, order[0], picks[0]);
      FillBoardTriesAll(b, order, next, b');
      b'
  }

  /** One step of FillBoard's maximality clause: order[0] is placed when it has room on b,
      and room on the final board means room on b; the rest comes from the recursive pass. */
  lemma FillBoardTriesAll(b: Board, order: seq<Word>, next: Board, b': Board)
    requires |order| > 0
    requires Settled(b, next) && Settled(next, b')
    requires |b.words| <= |next.words| <= |b'.words| && b'.words[..|next.words|] == next.words
    requires HasRoom(b, order[0]) ==>
               |next.words| == |b.words| + 1 && next.words[|b.words|].word == order[0].clean
    requires TriedAll(b', |next.words|, order[1..])
    ensures Settled(b, b')
    ensures TriedAll(b', |b.words|, order)
  {
    SettledTrans(b, next, b');
    forall k | 0 <= k < |order| && HasRoom(b', order[k])
      ensures PlacedAt(b', |b.words|, order[k].clean)
    {
      if k == 0 {
        HasRoomSettled(b, b', order[0]);
        assert b'.words[|b.words|] == next.words[|b.words|];
      } else {
        assert order[1..][k - 1] == order[k];
        var m :| |next.words| <= m < |b'.words| && b'.words[m].word == order[k].clean;
      }
    }
  }

  /** One step of FillBoard: the placement of order[0] followed by the pass over the rest.
      Stated on its own so that FillBoard's check stays small. */
  lemma FillBoardStep(b: Board, order: seq<Word>, next: Board, b': Board)
    requires Wf(b) && |order| > 0
    requires |b.words| <= |next.words| <= |b.words| + 1 && next.words[..|b.words|] == b.words
    requires |next.words| == |b.words| + 1 <==> HasRoom(b, order[0])
    requires |next.words| == |b.words| + 1 ==> next.words[|b.words|].word == order[0].clean
    requires |next.words| <= |b'.words| <= |next.words| + |order[1..]|
    requires b'.words[..|next.words|] == next.words
    requires PlacedFrom(b', |next.words|, order[1..])
    ensures |b.words| <= |b'.words| <= |b.words| + |order|
    ensures b'.words[..|b.words|] == b.words
    ensures PlacedFrom(b', |b.words|, order)
    ensures HasRoom(b, order[0]) ==> |b'.words| > |b.words|
  {
    assert b'.words[..|b.words|] == b'.words[..|next.words|][..|b.words|];
    FillBoardPlacedFrom(b, order, next, b');
  }

  /** One step of FillBoard's provenance clause: the word TryPlace may add is order[0],
      and the later ones come from order[1..]. A solver hint for FillBoardStep. */
  lemma FillBoardPlacedFrom(b: Board, order: seq<Word>, next: Board, b': Board)
    requires |order| > 0
    requires |b.words| <= |next.words| <= |b.words| + 1 && |next.words| <= |b'.words|
    requires b'.words[..|next.words|] == next.words
    requires |next.words| == |b.words| + 1 ==> next.words[|b.words|].word == order[0].clean
    requires PlacedFrom(b', |next.words|, order[1..])
    ensures PlacedFrom(b', |b.words|, order)
  {
    forall k | |b.words| <= k < |b'.words|
      ensures Listed(b'.words[k].word, order)
    {
      if k < |next.words| {
        assert b'.words[k] == next.words[k];
        assert order[0].clean == b'.words[k].word;
      } else {
        var j :| 0 <= j < |order[1..]| && order[1..][j].clean == b'.words[k].word;
        assert order[j + 1].clean == b'.words[k].word;
      }
    }
  }

  /** The caller-supplied randomness of one attempt: the shuffled vocabulary and one pick
      per word. */
  datatype AttemptChoice = AttemptChoice(order: seq<Word>, picks: seq<nat>)

  /** One attempt: a fresh board with the reserved border, then the placement pass. */
  function Attempt(rows: nat, cols: nat, ch: AttemptChoice): (b: Board)
    requires |ch.picks| == |ch.order|
    ensures Building(b) && b.rows == rows && b.cols == cols
    ensures |b.words| <= |ch.order|
    ensures PlacedFrom(b, 0, ch.order)
    ensures TriedAll(b, 0, ch.order)
  {
    FillBoard(InitialBoard(rows, cols), ch.order, ch.picks)
  }

  /** The number of words each attempt places, attempt by attempt. */
  ghost function WordCounts(rows: nat, cols: nat, choices: seq<AttemptChoice>): (n: seq<nat>)
    requires forall i :: 0 <= i < |choices| ==> |choices[i].picks| == |choices[i].order|
    ensures |n| == |choices|
    ensures forall i :: 0 <= i < |choices| ==> n[i] == |Attempt(rows, cols, choices[i]).words|
  {
    seq(|choices|, i requires 0 <= i < |choices| => |Attempt(rows, cols, choices[i]).words|)
  }

  /** Attempt i is the first of the attempts from a on whose word count n[i] reaches MinWords. */
  predicate FirstSuccess(n: seq<nat>, a: nat, i: nat)
  {
    && a <= i < |n|
    && n[i] >= MinWords
    && forall j :: a <= j < i ==> n[j] < MinWords
  }

  /** The attempts from a on: the first one that places at least MinWords words is
      finalised and returned. */
  function GenerateFrom(rows: nat, cols: nat, choices: seq<AttemptChoice>, a: nat): (r: Option<Board>)
    requires a <= |choices| == Attempts
    requires forall i :: 0 <= i < |choices| ==> |choices[i].picks| == |choices[i].order|
    ensures r.None? <==> forall i :: a <= i < Attempts ==> |Attempt(rows, cols, choices[i]).words| < MinWords
    ensures r.Some? ==> Finished(r.value) && r.value.rows == rows && r.value.cols == cols
    ensures r.Some? ==> |r.value.words| >= MinWords
    ensures r.Some? ==> exists i: nat :: FirstSuccess(WordCounts(rows, cols, choices), a, i) &&
                          r.value == Finalize(Attempt(rows, cols, choices[i]))
    decreases Attempts - a
  {
    if a == Attempts then None
    else
      var b := Attempt(rows, cols, choices[a]);
      if |b.words| >= MinWords then
        FirstAttemptWins(rows, cols, choices, a);
        Some(Finalize(b))
      else
        var r := GenerateFrom(rows, cols, choices, a + 1);
        FirstSuccessStep(rows, cols, choices, a, r);
        r
  }

  /** When attempt a succeeds, its finalised board is the first success from a on. */
  lemma FirstAttemptWins(rows: nat, cols: nat, choices: seq<AttemptChoice>, a: nat)
    requires a < |choices| == Attempts
    requires forall i :: 0 <= i < |choices| ==> |choices[i].picks| == |choices[i].order|
    requires |Attempt(rows, cols, choices[a]).words| >= MinWords
    ensures !(forall i :: a <= i < Attempts ==> |Attempt(rows, cols, choices[i]).words| < MinWords)
    ensures var b := Finalize(Attempt(rows, cols, choices[a]));
            Finished(b) && b.rows == rows && b.cols == cols && |b.words| >= MinWords
    ensures FirstSuccess(WordCounts(rows, cols, choices), a, a)
  {
    FinalizeFinishes(Attempt(rows, cols, choices[a]));
  }

  /** When attempt a fails, the first success from a + 1 on is the first from a on, and
      every attempt from a on fails exactly when every attempt from a + 1 on does. */
  lemma FirstSuccessStep(rows: nat, cols: nat, choices: seq<AttemptChoice>, a: nat, r: Option<Board>)
    requires a < |choices| == Attempts
    requires forall i :: 0 <= i < |choices| ==> |choices[i].picks| == |choices[i].order|
    requires |Attempt(rows, cols, choices[a]).words| < MinWords
    requires r.Some? ==> exists i: nat :: FirstSuccess(WordCounts(rows, cols, choices), a + 1, i) &&
                           r.value == Finalize(Attempt(rows, cols, choices[i]))
    ensures r.Some? ==> exists i: nat :: FirstSuccess(WordCounts(rows, cols, choices), a, i) &&
                          r.value == Finalize(Attempt(rows, cols, choices[i]))
    ensures (forall i :: a <= i < Attempts ==> |Attempt(rows, cols, choices[i]).words| < MinWords) <==>
            (forall i :: a + 1 <= i < Attempts ==> |Attempt(rows, cols, choices[i]).words| < MinWords)
  {
    if r.Some? {
      var i: nat :| FirstSuccess(WordCounts(rows, cols, choices), a + 1, i) && r.value == Finalize(Attempt(rows, cols, choices[i]));
      FirstSuccessShift(WordCounts(rows, cols, choices), a, i);
    }
  }

  /** Attempt i, first from a + 1 on, is first from a on when attempt a fails. Stated on
      word counts alone, so that the step does not unfold any attempt. */
  lemma FirstSuccessShift(n: seq<nat>, a: nat, i: nat)
    requires a < |n| && n[a] < MinWords
    requires FirstSuccess(n, a + 1, i)
    ensures FirstSuccess(n, a, i)
  {
  }

  /** generate: no board for an empty vocabulary or when all 20 attempts place fewer than
      five words; otherwise the finalised board of the first attempt that places at least
      five words, every one of them a vocabulary entry. */
  function Generate(rows: nat, cols: nat, vocab: seq<Word>, choices: seq<AttemptChoice>): (r: Option<Board>)
    requires forall i :: 0 <= i < |vocab| ==> ValidWord(vocab[i])
    requires |choices| == Attempts
    requires forall i :: 0 <= i < |choices| ==>    // each attempt shuffles the vocabulary, one pick per word
               multiset(choices[i].order) == multiset(vocab) && |choices[i].picks| == |choices[i].order|
    ensures r.None? <==>
              |vocab| == 0 || forall i :: 0 <= i < Attempts ==> |Attempt(rows, cols, choices[i]).words| < MinWords
    ensures r.Some? ==> Finished(r.value) && r.value.rows == rows && r.value.cols == cols
    ensures r.Some? ==> |r.value.words| >= MinWords
    ensures r.Some? ==> exists i: nat :: FirstSuccess(WordCounts(rows, cols, choices), 0, i) &&
                          r.value == Finalize(Attempt(rows, cols, choices[i]))
    ensures r.Some? ==> PlacedFrom(r.value, 0, vocab)
  {
    if |vocab| == 0 then None
    else
      var r := GenerateFrom(rows, cols, choices, 0);
      GenerateFromVocab(rows, cols, vocab, choices, r);
      r
  }

  /** The board of the first successful attempt holds only vocabulary words. */
  lemma GenerateFromVocab(rows: nat, cols: nat, vocab: seq<Word>, choices: seq<AttemptChoice>, r: Option<Board>)
    requires |choices| == Attempts
    requires forall i :: 0 <= i < |choices| ==>
               multiset(choices[i].order) == multiset(vocab) && |choices[i].picks| == |choices[i].order|
    requires r.Some? ==> exists i: nat :: FirstSuccess(WordCounts(rows, cols, choices), 0, i) &&
                           r.value == Finalize(Attempt(rows, cols, choices[i]))
    ensures r.Some? ==> PlacedFrom(r.value, 0, vocab)
  {
    if r.Some? {
      var i: nat :| FirstSuccess(WordCounts(rows, cols, choices), 0, i) && r.value == Finalize(Attempt(rows, cols, choices[i]));
      ShuffledPlacedFrom(Attempt(rows, cols, choices[i]), choices[i].order, vocab);
    }
  }

  /** Words drawn from a shuffle of the vocabulary are words of the vocabulary. */
  lemma ShuffledPlacedFrom(b: Board, order: seq<Word>, vocab: seq<Word>)
    requires Wf(b)
    requires multiset(order) == multiset(vocab)
    requires PlacedFrom(b, 0, order)
    ensures PlacedFrom(Finalize(b), 0, vocab)
  {
    forall k | 0 <= k < |b.words|
      ensures Listed(b.words[k].word, vocab)
    {
      var j :| 0 <= j < |order| && order[j].clean == b.words[k].word;
      assert order[j] in multiset(vocab);
      var m :| 0 <= m < |vocab| && vocab[m] == order[j];
    }
  }
}

=== FILE: grid.dfy ===
/**
  The data model of an arrowword board: the cells of the generator's matrix,
  word starts and their geometry, and the invariants a board keeps while it
  is built and once it is finished.
 */
module Grid {
  import opened Wrappers

  /** One square of the generator's matrix. */
  datatype Cell =
    | Empty                                               // a null entry, not yet assigned
    | Reserved                                            // 'reserved_clue': row 0 / column 0 before a hint lands there
    | Clue(right: Option<string>, down: Option<string>)   // 'clue': hint for the word to the right and/or below
    | Char(ch: char)                                      // 'char': one letter of a placed word
    | Block                                               // 'block': filler written by finalisation

  /** 'h' and 'v'. */
  datatype Dir = Across | Down

  /** A candidate start: the first letter of a word sits at (r, c). */
  datatype Start = Start(r: int, c: int, dir: Dir)

  /** A vocabulary entry after normalisation: `clean` is what goes on the board. */
  datatype Word = Word(clean: string, hint: string)

  /** An entry of `placedWords`: the word and where it starts (no hint is recorded). */
  datatype PlacedWord = PlacedWord(word: string, at: Start)

  /** The generator's state, and later the generated data the game reads. */
  datatype Board = Board(rows: nat, cols: nat, grid: seq<seq<Cell>>, words: seq<PlacedWord>)

  const MinWordLen: nat := 2
  const MaxWordLen: nat := 8

  /** The length filter applied to the vocabulary before generation. */
  predicate ValidWord(w: Word)
  {
    MinWordLen <= |w.clean| <= MaxWordLen
  }

  predicate Wf(b: Board)
  {
    |b.grid| == b.rows && forall r :: 0 <= r < |b.grid| ==> |b.grid[r]| == b.cols
  }

  predicate InBounds(b: Board, r: int, c: int)
  {
    0 <= r < b.rows && 0 <= c < b.cols
  }

  // ---------------------------------------------------------------------
  // Geometry of a start
  // ---------------------------------------------------------------------

  /** Row of the i-th letter of a word starting at p. */
  function SpanRow(p: Start, i: int): int
  {
    if p.dir == Down then p.r + i else p.r
  }

  /** Column of the i-th letter of a word starting at p. */
  function SpanCol(p: Start, i: int): int
  {
    if p.dir == Across then p.c + i else p.c
  }

  /** The clue cell: the cell just before the first letter. */
  function ClueRow(p: Start): int
  {
    if p.dir == Down then p.r - 1 else p.r
  }

  function ClueCol(p: Start): int
  {
    if p.dir == Across then p.c - 1 else p.c
  }

  /** Whether (r, c) is one of the `len` letter cells of a word starting at p. */
  predicate InSpan(p: Start, len: int, r: int, c: int)
  {
    if p.dir == Across then r == p.r && p.c <= c < p.c + len
    else c == p.c && p.r <= r < p.r + len
  }

  /** Index of the letter at (r, c) within a word starting at p. */
  function Offset(p: Start, r: int, c: int): int
  {
    if p.dir == Across then c - p.c else r - p.r
  }

  /** The last start row / column the enumeration loops try for a word of length len. */
  function LastRow(rows: int, len: int, dir: Dir): int
  {
    if dir == Across then rows - 1 else rows - len
  }

  function LastCol(cols: int, len: int, dir: Dir): int
  {
    if dir == Across then cols - len else cols - 1
  }

  /** The starts the enumeration produces: row and column at least 1, the word fits. */
  predicate ValidStart(rows: int, cols: int, len: int, p: Start)
  {
    1 <= p.r <= LastRow(rows, len, p.dir) && 1 <= p.c <= LastCol(cols, len, p.dir)
  }

  /** Every letter of a validly started word lies off the reserved border and on the board,
      and so does its clue cell. */
  lemma StartGeometry(rows: int, cols: int, len: nat, p: Start)
    requires ValidStart(rows, cols, len, p)
    ensures forall i :: 0 <= i < len ==>
              1 <= SpanRow(p, i) < rows && 1 <= SpanCol(p, i) < cols
              && InSpan(p, len, SpanRow(p, i), SpanCol(p, i)) && Offset(p, SpanRow(p, i), SpanCol(p, i)) == i
    ensures 0 <= ClueRow(p) < rows && 0 <= ClueCol(p) < cols
    ensures !InSpan(p, len, ClueRow(p), ClueCol(p))
    ensures forall r, c :: InSpan(p, len, r, c) ==>
              0 <= Offset(p, r, c) < len && r == SpanRow(p, Offset(p, r, c)) && c == SpanCol(p, Offset(p, r, c))
  {
  }

  // ---------------------------------------------------------------------
  // Board invariants
  // ---------------------------------------------------------------------

  /** Row 0 and column 0 never hold a letter. */
  predicate NoBorderLetters(b: Board)
    requires Wf(b)
  {
    forall r, c :: 0 <= r < b.rows && 0 <= c < b.cols && (r == 0 || c == 0) ==> !b.grid[r][c].Char?
  }

  /** Filler blocks only appear once the board is finalised. */
  predicate NoBlocks(b: Board)
    requires Wf(b)
  {
    forall r, c :: 0 <= r < b.rows && 0 <= c < b.cols ==> !b.grid[r][c].Block?
  }

  /** A clue cell carrying a hint in direction dir. */
  predicate HasHint(cell: Cell, dir: Dir)
  {
    cell.Clue? && (if dir == Across then cell.right.Some? else cell.down.Some?)
  }

  /** A placed word is legible on the board: its start is valid, its letters are on the
      board, and its clue cell holds a hint in its direction. */
  predicate WordHolds(b: Board, pw: PlacedWord)
    requires Wf(b)
  {
    && ValidStart(b.rows, b.cols, |pw.word|, pw.at)
    && (forall i :: 0 <= i < |pw.word| ==> b.grid[SpanRow(pw.at, i)][SpanCol(pw.at, i)] == Char(pw.word[i]))
    && HasHint(b.grid[ClueRow(pw.at)][ClueCol(pw.at)], pw.at.dir)
  }

  predicate WordsHold(b: Board)
    requires Wf(b)
  {
    forall k :: 0 <= k < |b.words| ==> WordHolds(b, b.words[k])
  }

  /** What holds of the generator's board between placements. */
  predicate Building(b: Board)
  {
    Wf(b) && NoBlocks(b) && NoBorderLetters(b) && WordsHold(b)
  }

  /** Every cell has one of the three roles a finished board knows. */
  predicate Covered(b: Board)
    requires Wf(b)
  {
    forall r, c :: 0 <= r < b.rows && 0 <= c < b.cols ==> b.grid[r][c].Char? || b.grid[r][c].Clue? || b.grid[r][c].Block?
  }

  /** A board as `generate` hands it to the game. */
  predicate Finished(b: Board)
  {
    Wf(b) && Covered(b) && NoBorderLetters(b) && WordsHold(b)
  }

  /** The empty matrix of an attempt, with row 0 and column 0 marked reserved. */
  function InitialBoard(rows: nat, cols: nat): (b: Board)
    ensures Wf(b) && b.rows == rows && b.cols == cols && b.words == []
    ensures forall r, c :: InBounds(b, r, c) ==> b.grid[r][c] == (if r == 0 || c == 0 then Reserved else Empty)
    ensures Building(b)
  {
    Board(rows, cols, seq(rows, r => seq(cols, c => if r == 0 || c == 0 then Reserved else Empty)), [])
  }

  /** Two words of a board whose spans share a cell agree on the letter there. */
  lemma CrossingsAgree(b: Board, k1: nat, k2: nat, r: int, c: int)
    requires Wf(b) && WordsHold(b) && k1 < |b.words| && k2 < |b.words|
    requires InSpan(b.words[k1].at, |b.words[k1].word|, r, c)
    requires InSpan(b.words[k2].at, |b.words[k2].word|, r, c)
    ensures b.words[k1].word[Offset(b.words[k1].at, r, c)] == b.words[k2].word[Offset(b.words[k2].at, r, c)]
    ensures b.grid[r][c] == Char(b.words[k1].word[Offset(b.words[k1].at, r, c)])
  {
    var w1, w2 := b.words[k1], b.words[k2];
    assert WordHolds(b, w1) && WordHolds(b, w2);
    StartGeometry(b.rows, b.cols, |w1.word|, w1.at);
    StartGeometry(b.rows, b.cols, |w2.word|, w2.at);
    var i1, i2 := Offset(w1.at, r, c), Offset(w2.at, r, c);
    assert b.grid[SpanRow(w1.at, i1)][SpanCol(w1.at, i1)] == Char(w1.word[i1]);
    assert b.grid[SpanRow(w2.at, i2)][SpanCol(w2.at, i2)] == Char(w2.word[i2]);
  }
}

=== FILE: placement.dfy ===
/**
  The placement primitives of the generator: the legality test for a start,
  the intersection score, writing a word with its clue, and the final
  coverage pass.
 */
module Placement {
  import opened Wrappers
  import opened Grid

  // ---------------------------------------------------------------------
  // canPlace
  // ---------------------------------------------------------------------

  /** Whether a letter ch may go into a cell: a letter clash, a clue and a reserved
      cell refuse it; an empty cell (and a filler block) accept it. */
  predicate Fits(cell: Cell, ch: char)
  {
    match cell
    case Char(x) => x == ch
    case Reserved => false
    case Clue(_, _) => false
    case Empty => true
    case Block => true
  }

  /** The scan of the span from letter i onwards. */
  function SpanFits(b: Board, w: string, p: Start, i: nat): (ok: bool)
    requires Wf(b) && ValidStart(b.rows, b.cols, |w|, p) && i <= |w|
    ensures ok <==> forall j :: i <= j < |w| ==> Fits(b.grid[SpanRow(p, j)][SpanCol(p, j)], w[j])
    decreases |w| - i
  {
    i == |w| || (Fits(b.grid[SpanRow(p, i)][SpanCol(p, i)], w[i]) && SpanFits(b, w, p, i + 1))
  }

  /** canPlace: no cell of the span refuses its letter and the clue cell holds no letter. */
  function CanPlace(b: Board, w: string, p: Start): (ok: bool)
    requires Wf(b) && ValidStart(b.rows, b.cols, |w|, p)
    ensures ok <==>
      && (forall i :: 0 <= i < |w| ==> Fits(b.grid[SpanRow(p, i)][SpanCol(p, i)], w[i]))
      && !b.grid[ClueRow(p)][ClueCol(p)].Char?
  {
    SpanFits(b, w, p, 0) && !b.grid[ClueRow(p)][ClueCol(p)].Char?
  }

  /** The three ways canPlace refuses a start, and that nothing else refuses it. */
  lemma CanPlaceRefusals(b: Board, w: string, p: Start)
    requires Wf(b) && ValidStart(b.rows, b.cols, |w|, p)
    ensures !CanPlace(b, w, p) <==>
      || (exists i :: 0 <= i < |w| && b.grid[SpanRow(p, i)][SpanCol(p, i)].Char?
                                   && b.grid[SpanRow(p, i)][SpanCol(p, i)].ch != w[i])
      || (exists i :: 0 <= i < |w| && (b.grid[SpanRow(p, i)][SpanCol(p, i)].Clue?
                                      || b.grid[SpanRow(p, i)][SpanCol(p, i)].Reserved?))
      || b.grid[ClueRow(p)][ClueCol(p)].Char?
  {
    if !CanPlace(b, w, p) && !b.grid[ClueRow(p)][ClueCol(p)].Char? {
      var i :| 0 <= i < |w| && !Fits(b.grid[SpanRow(p, i)][SpanCol(p, i)], w[i]);
      assert b.grid[SpanRow(p, i)][SpanCol(p, i)].Char? || b.grid[SpanRow(p, i)][SpanCol(p, i)].Clue?
          || b.grid[SpanRow(p, i)][SpanCol(p, i)].Reserved?;
    }
  }

  // ---------------------------------------------------------------------
  // countIntersections
  // ---------------------------------------------------------------------

  /** Letter cells among the span positions i.. of a word starting at p. */
  function CountFrom(b: Board, w: string, p: Start, i: nat): (n: nat)
    requires Wf(b) && ValidStart(b.rows, b.cols, |w|, p) && i <= |w|
    ensures n <= |w| - i
    decreases |w| - i
  {
    if i == |w| then 0
    else (if b.grid[SpanRow(p, i)][SpanCol(p, i)].Char? then 1 else 0) + CountFrom(b, w, p, i + 1)
  }

  /** countIntersections: how many cells of the span already hold a letter. */
  function CountIntersections(b: Board, w: string, p: Start): (n: nat)
    requires Wf(b) && ValidStart(b.rows, b.cols, |w|, p)
    ensures n <= |w|
  {
    CountFrom(b, w, p, 0)
  }

  /** The positions of the span (from i on) whose cell already holds a letter. */
  function CrossedFrom(b: Board, w: string, p: Start, i: nat): set<int>
    requires Wf(b) && ValidStart(b.rows, b.cols, |w|, p)
  {
    set j | i <= j < |w| && b.grid[SpanRow(p, j)][SpanCol(p, j)].Char?
  }

  lemma {:induction false} CountFromIsCrossed(b: Board, w: string, p: Start, i: nat)
    requires Wf(b) && ValidStart(b.rows, b.cols, |w|, p) && i <= |w|
    ensures CountFrom(b, w, p, i) == |CrossedFrom(b, w, p, i)|
    decreases |w| - i
  {
    if i < |w| {
      CountFromIsCrossed(b, w, p, i + 1);
      CrossedStep(b, w, p, i);
    } else {
      assert CrossedFrom(b, w, p, i) == {};
    }
  }

  /** Position i adds itself to the crossed positions exactly when its cell holds a letter. */
  lemma CrossedStep(b: Board, w: string, p: Start, i: nat)
    requires Wf(b) && ValidStart(b.rows, b.cols, |w|, p) && i < |w|
    ensures |CrossedFrom(b, w, p, i)| ==
            (if b.grid[SpanRow(p, i)][SpanCol(p, i)].Char? then 1 else 0) + |CrossedFrom(b, w, p, i + 1)|
  {
    var here := CrossedFrom(b, w, p, i);
    var rest := CrossedFrom(b, w, p, i + 1);
    assert i !in rest;
    if b.grid[SpanRow(p, i)][SpanCol(p, i)].Char? {
      assert here == rest + {i} by {
        forall j ensures j in here <==> j in rest + {i} {
          if j == i { assert j in here; }
        }
      }
    } else {
      assert here == rest by {
        forall j ensures j in here <==> j in rest {
          if j == i { assert j !in here; }
        }
      }
    }
  }

  /** The intersection score is the number of span positions that already hold a letter. */
  lemma CountIntersectionsIsCrossings(b: Board, w: string, p: Start)
    requires Wf(b) && ValidStart(b.rows, b.cols, |w|, p)
    ensures CountIntersections(b, w, p) == |set j | 0 <= j < |w| && b.grid[SpanRow(p, j)][SpanCol(p, j)].Char?|
  {
    CountFromIsCrossed(b, w, p, 0);
  }

  // ---------------------------------------------------------------------
  // placeWord
  // ---------------------------------------------------------------------

  /** A cell placeWord can turn into a clue: on a letter or a block the source would
      assign a hint to an object that has none. */
  predicate ClueSlotOpen(cell: Cell)
  {
    cell.Empty? || cell.Reserved? || cell.Clue?
  }

  /** The clue cell after a hint for direction dir is assigned: an empty or reserved cell
      becomes a fresh clue; an existing clue keeps its other hint and has this one replaced. */
  function WithHint(cell: Cell, dir: Dir, hint: string): (r: Cell)
    requires ClueSlotOpen(cell)
    ensures r.Clue? && HasHint(r, dir)
    ensures dir == Across ==> r.right == Some(hint) && r.down == (if cell.Clue? then cell.down else None)
    ensures dir == Down ==> r.down == Some(hint) && r.right == (if cell.Clue? then cell.right else None)
  {
    var base := if cell.Clue? then cell else Clue(None, None);
    if dir == Across then base.(right := Some(hint)) else base.(down := Some(hint))
  }

  function SetCell(b: Board, r: int, c: int, v: Cell): (b': Board)
    requires Wf(b) && InBounds(b, r, c)
    ensures Wf(b') && b'.rows == b.rows && b'.cols == b.cols && b'.words == b.words
    ensures forall r', c' :: InBounds(b, r', c') ==>
              b'.grid[r'][c'] == (if r' == r && c' == c then v else b.grid[r'][c'])
  {
    b.(grid := b.grid[r := b.grid[r][c := v]])
  }

  /** The letter loop of placeWord, from letter i onwards. */
  function WriteLetters(b: Board, w: string, p: Start, i: nat): (b': Board)
    requires Wf(b) && ValidStart(b.rows, b.cols, |w|, p) && i <= |w|
    ensures Wf(b') && b'.rows == b.rows && b'.cols == b.cols && b'.words == b.words
    ensures forall r, c :: InBounds(b, r, c) ==>
              b'.grid[r][c] == (if InSpan(p, |w|, r, c) && i <= Offset(p, r, c)
                                then Char(w[Offset(p, r, c)]) else b.grid[r][c])
    decreases |w| - i
  {
    StartGeometry(b.rows, b.cols, |w|, p);
    if i == |w| then b
    else WriteLetters(SetCell(b, SpanRow(p, i), SpanCol(p, i), Char(w[i])), w, p, i + 1)
  }

  /** placeWord: the clue cell receives the hint, the span receives the letters, and the
      word is appended to the placed words; no other cell changes. */
  function PlaceWord(b: Board, w: Word, p: Start): (b': Board)
    requires Wf(b) && ValidStart(b.rows, b.cols, |w.clean|, p)
    requires ClueSlotOpen(b.grid[ClueRow(p)][ClueCol(p)])
    ensures Wf(b') && b'.rows == b.rows && b'.cols == b.cols
    ensures b'.words == b.words + [PlacedWord(w.clean, p)]
    ensures b'.grid[ClueRow(p)][ClueCol(p)] == WithHint(b.grid[ClueRow(p)][ClueCol(p)], p.dir, w.hint)
    ensures forall i :: 0 <= i < |w.clean| ==> b'.grid[SpanRow(p, i)][SpanCol(p, i)] == Char(w.clean[i])
    ensures forall r, c :: InBounds(b, r, c) && !InSpan(p, |w.clean|, r, c) && !(r == ClueRow(p) && c == ClueCol(p)) ==>
              b'.grid[r][c] == b.grid[r][c]
  {
    StartGeometry(b.rows, b.cols, |w.clean|, p);
    var clued := SetCell(b, ClueRow(p), ClueCol(p), WithHint(b.grid[ClueRow(p)][ClueCol(p)], p.dir, w.hint));
    var lettered := WriteLetters(clued, w.clean, p, 0);
    lettered.(words := b.words + [PlacedWord(w.clean, p)])
  }

  /** After a successful canPlace, placeWord keeps every letter, keeps every clue a clue
      and keeps the board's building invariant. */
  lemma PlaceWordPreserves(b: Board, w: Word, p: Start)
    requires Building(b) && ValidStart(b.rows, b.cols, |w.clean|, p) && CanPlace(b, w.clean, p)
    ensures ClueSlotOpen(b.grid[ClueRow(p)][ClueCol(p)])
    ensures forall r, c :: InBounds(b, r, c) && b.grid[r][c].Char? ==> PlaceWord(b, w, p).grid[r][c] == b.grid[r][c]
    ensures forall r, c :: InBounds(b, r, c) && b.grid[r][c].Clue? ==> PlaceWord(b, w, p).grid[r][c].Clue?
    ensures Building(PlaceWord(b, w, p))
  {
    StartGeometry(b.rows, b.cols, |w.clean|, p);
    PlaceWordSpan(b, w, p);
    PlaceWordKeepsWords(b, w, p);
  }

  /** Inside the span of an accepted start, placing the word writes its letters over cells that
      held either nothing or the same letter, and never over a clue. */
  lemma PlaceWordSpan(b: Board, w: Word, p: Start)
    requires Building(b) && ValidStart(b.rows, b.cols, |w.clean|, p) && CanPlace(b, w.clean, p)
    ensures forall r, c | InBounds(b, r, c) && InSpan(p, |w.clean|, r, c) ::
              PlaceWord(b, w, p).grid[r][c] == Char(w.clean[Offset(p, r, c)]) &&
              (b.grid[r][c].Char? ==> PlaceWord(b, w, p).grid[r][c] == b.grid[r][c]) &&
              !b.grid[r][c].Clue?
  {
    StartGeometry(b.rows, b.cols, |w.clean|, p);
    var b' := PlaceWord(b, w, p);
    forall r, c | InBounds(b, r, c) && InSpan(p, |w.clean|, r, c)
      ensures b'.grid[r][c] == Char(w.clean[Offset(p, r, c)])
      ensures b.grid[r][c].Char? ==> b'.grid[r][c] == b.grid[r][c]
      ensures !b.grid[r][c].Clue?
    {
      var i := Offset(p, r, c);
      assert b'.grid[SpanRow(p, i)][SpanCol(p, i)] == Char(w.clean[i]);
      assert Fits(b.grid[SpanRow(p, i)][SpanCol(p, i)], w.clean[i]);
    }
  }

  /** Every word placed earlier stays legible after an accepted placement. */
  lemma PlaceWordKeepsWords(b: Board, w: Word, p: Start)
    requires Building(b) && ValidStart(b.rows, b.cols, |w.clean|, p) && CanPlace(b, w.clean, p)
    ensures WordsHold(PlaceWord(b, w, p))
  {
    StartGeometry(b.rows, b.cols, |w.clean|, p);
    PlaceWordSpan(b, w, p);
    var b' := PlaceWord(b, w, p);
    forall k | 0 <= k < |b'.words|
      ensures WordHolds(b', b'.words[k])
    {
      if k < |b.words| {
        var pw := b.words[k];
        assert b'.words[k] == pw;
        assert WordHolds(b, pw);
        StartGeometry(b.rows, b.cols, |pw.word|, pw.at);
        forall i | 0 <= i < |pw.word|
          ensures b'.grid[SpanRow(pw.at, i)][SpanCol(pw.at, i)] == Char(pw.word[i])
        {
          assert b.grid[SpanRow(pw.at, i)][SpanCol(pw.at, i)] == Char(pw.word[i]);
        }
      }
    }
  }

  // ---------------------------------------------------------------------
  // Placement only narrows the legal starts
  // ---------------------------------------------------------------------

  /** A cell may go from before to after during generation: an unassigned cell or a filler
      block may become anything, a reserved cell or a clue may become a clue, and any other
      cell stays as it is. */
  predicate Grows(before: Cell, after: Cell)
  {
    before == after || before.Empty? || before.Block? || ((before.Reserved? || before.Clue?) && after.Clue?)
  }

  /** b' is b with some cells grown and nothing else about the grid changed. */
  ghost predicate Settled(b: Board, b': Board)
  {
    && Wf(b) && Wf(b') && b'.rows == b.rows && b'.cols == b.cols
    && forall r, c :: InBounds(b, r, c) ==> Grows(b.grid[r][c], b'.grid[r][c])
  }

  lemma SettledTrans(b0: Board, b1: Board, b2: Board)
    requires Settled(b0, b1) && Settled(b1, b2)
    ensures Settled(b0, b2)
  {
    forall r, c | InBounds(b0, r, c)
      ensures Grows(b0.grid[r][c], b2.grid[r][c])
    {
      assert InBounds(b1, r, c);
    }
  }

  /** A start the grown board accepts was already acceptable before: growing cells never
      turns a refused start into an accepted one. */
  lemma SettledCanPlace(b: Board, b': Board, w: string, p: Start)
    requires Settled(b, b') && ValidStart(b.rows, b.cols, |w|, p)
    requires CanPlace(b', w, p)
    ensures CanPlace(b, w, p)
  {
    StartGeometry(b.rows, b.cols, |w|, p);
    forall i | 0 <= i < |w|
      ensures Fits(b.grid[SpanRow(p, i)][SpanCol(p, i)], w[i])
    {
      assert InBounds(b, SpanRow(p, i), SpanCol(p, i));
      assert Fits(b'.grid[SpanRow(p, i)][SpanCol(p, i)], w[i]);
    }
    assert InBounds(b, ClueRow(p), ClueCol(p));
  }

  /** An accepted placement only grows cells. */
  lemma PlaceWordSettles(b: Board, w: Word, p: Start)
    requires Building(b) && ValidStart(b.rows, b.cols, |w.clean|, p) && CanPlace(b, w.clean, p)
    ensures ClueSlotOpen(b.grid[ClueRow(p)][ClueCol(p)])
    ensures Settled(b, PlaceWord(b, w, p))
  {
    StartGeometry(b.rows, b.cols, |w.clean|, p);
    PlaceWordSpan(b, w, p);
    var b' := PlaceWord(b, w, p);
    forall r, c | InBounds(b, r, c)
      ensures Grows(b.grid[r][c], b'.grid[r][c])
    {
      if InSpan(p, |w.clean|, r, c) {
        var i := Offset(p, r, c);
        assert SpanRow(p, i) == r && SpanCol(p, i) == c;
        assert Fits(b.grid[r][c], w.clean[i]);
      }
    }
  }

  // ---------------------------------------------------------------------
  // finalizeBoard
  // ---------------------------------------------------------------------

  /** The coverage rule for one cell: an unassigned or reserved cell becomes a block. */
  function FinalCell(cell: Cell): Cell
  {
    if cell.Empty? || cell.Reserved? then Block else cell
  }

  /** finalizeBoard: every cell ends up a letter, a clue or a block; letters and clues
      are kept as they are. */
  function Finalize(b: Board): (b': Board)
    requires Wf(b)
    ensures Wf(b') && b'.rows == b.rows && b'.cols == b.cols && b'.words == b.words
    ensures Covered(b')
    ensures forall r, c :: InBounds(b, r, c) && (b.grid[r][c].Char? || b.grid[r][c].Clue?) ==>
              b'.grid[r][c] == b.grid[r][c]
    ensures forall r, c :: InBounds(b, r, c) && (b.grid[r][c].Empty? || b.grid[r][c].Reserved?) ==>
              b'.grid[r][c] == Block
  {
    b.(grid := seq(b.rows, r requires 0 <= r < b.rows =>
                    seq(b.cols, c requires 0 <= c < b.cols => FinalCell(b.grid[r][c]))))
  }

  /** A board that satisfied the building invariant is a finished board after finalisation. */
  lemma FinalizeFinishes(b: Board)
    requires Building(b)
    ensures Finished(Finalize(b))
  {
    var b' := Finalize(b);
    forall k | 0 <= k < |b'.words|
      ensures WordHolds(b', b'.words[k])
    {
      var pw := b.words[k];
      assert WordHolds(b, pw);
      StartGeometry(b.rows, b.cols, |pw.word|, pw.at);
      forall i | 0 <= i < |pw.word|
        ensures b'.grid[SpanRow(pw.at, i)][SpanCol(pw.at, i)] == Char(pw.word[i])
      {
        assert b.grid[SpanRow(pw.at, i)][SpanCol(pw.at, i)] == Char(pw.word[i]);
      }
    }
  }

  /** Finalising a finalised board changes nothing. */
  lemma FinalizeIdempotent(b: Board)
    requires Wf(b)
    ensures Finalize(Finalize(b)) == Finalize(b)
  {
    var f := Finalize(b);
    var ff := Finalize(f);
    assert forall r :: 0 <= r < b.rows ==> ff.grid[r] == f.grid[r];
  }
}

=== FILE: wrappers.dfy ===
/** The optional value used for clue hints and for "no candidate" results. */
module Wrappers {

  datatype Option<+T> = None | Some(value: T)

  function Min(a: int, b: int): int
  {
    if a <= b then a else b
  }
}
